=== FILE: README.md ===
# Trivia API and Fyyur booking site: a Dafny model of the request logic

This project models the request logic of two small Flask applications. Each
database table is modelled as an immutable sequence of records in store order.

- **Trivia API** (`flaskr/__init__.py` and `utils.py`):
  - listing categories;
  - paginating questions, ten per page, with Python's slicing rules;
  - deleting a question;
  - validating and adding a question;
  - case-insensitive search;
  - listing the questions of a category;
  - the quiz pick: a question of the requested category that has not been
    asked yet.

  Every response is a JSON envelope built by `success_response` or
  `error_response`. Every handler except `categories()` wraps its body in
  `try`/`except` and turns any exception into `abort(400)`. `categories()`
  has no such wrapper. The model writes a handler body as an
  `Outcome`: a returned envelope or a raised exception. `Trivia.Handle` then
  maps that outcome to the HTTP reply.
- **Fyyur** (`app.py`):
  - the upcoming and past shows of venues and artists, relative to a
    reference time `now`;
  - the venue overview grouped by city and state;
  - name search for venues and artists;
  - the show listing, with its "Removed/Unknown venue" fallback;
  - the result of deleting a venue;
  - the choice of a date pattern in `format_datetime`.

The modules follow the program's structure:

| Module | Covers |
|---|---|
| `Python` | The Python semantics the handlers depend on: decoded JSON values, truthiness, `== 0`, `str()`, slicing, exceptions |
| `Text` | Case folding, substring search, `split` and `join` |
| `Seqs` | The filtered read that stands for every `query.filter(...).all()`, and the lookup that stands for every `query.get(id)` |
| `Grouping` | `dict.setdefault(key, []).append(row)` over an insertion-ordered dict. It has a reference definition (`Groups`) and the handler's loop (`GroupBy`) |
| `Envelopes` | `utils.py` |
| `Trivia` | `flaskr/__init__.py` |
| `Fyyur` | `app.py`, except the venue overview |
| `Areas` | The venue overview of `app.py` |

## Model

| member | source | states |
|---|---|---|
| `Envelopes.SuccessResponse` | projects/02_trivia_api/starter/backend/utils.py:3-10 | The envelope always reports success and carries the data unchanged, with no message. The code is 200 unless the caller gives one. |
| `Envelopes.ErrorResponse` | projects/02_trivia_api/starter/backend/utils.py:12-19 | The envelope never reports success and has no data. The message defaults to the fixed "Bad request as maybe…" sentence and the code defaults to 400. |
| `Envelopes.CallSuccessResponse` | projects/02_trivia_api/starter/backend/utils.py:3 | `success_response` has no `message` parameter and requires `data`. A call that passes `message` or omits `data` raises TypeError. Any other call gives the success envelope with that data, and with the given code or 200 when none is given. |
| `Trivia.Handle` | projects/02_trivia_api/starter/backend/flaskr/__init__.py:78-79 | A raised exception becomes HTTP 400 with the default error envelope. A returned envelope is sent with HTTP 200, whatever its own code says. |
| `Trivia.FormattedCategories` | projects/02_trivia_api/starter/backend/flaskr/__init__.py:207-214 | With no categories the result is the falsy value (here `None`). Otherwise it is every category, in store order. |
| `Trivia.ListCategories` | projects/02_trivia_api/starter/backend/flaskr/__init__.py:42-48 | With at least one category, the reply is success with all categories and code 200. With none, it is the default error envelope (code 400) under HTTP 200. The envelope is well formed: a success envelope has data and no message, an error envelope a message and no data. |
| `Trivia.ListQuestions` | projects/02_trivia_api/starter/backend/flaskr/__init__.py:57-79 | Take p to be the page number, or 1 when it is absent, and suppose p ≥ 1. The reply succeeds exactly when (p-1)·10 < the number of questions. It then returns, with envelope code 200, `all[(p-1)·10 .. min(p·10, n))`: at most 10 questions, in store order. The total count is always the whole store, and the current category is that of the first question. Every other reply is HTTP 400. The envelope is well formed: a success envelope has data and no message, an error envelope a message and no data. |
| `Trivia.PageOfPosition` | projects/02_trivia_api/starter/backend/flaskr/__init__.py:60-65 | The question at position k is served as item k mod 10 of page k div 10 + 1. |
| `Trivia.QuestionsPageCategories` | projects/02_trivia_api/starter/backend/flaskr/__init__.py:44-48 | A successful page of questions carries categories exactly when `GET /categories` succeeds, and then the same list, because both read `get_formatted_categories()`. |
| `Trivia.NonPositivePages` | projects/02_trivia_api/starter/backend/flaskr/__init__.py:60-79 | Page 0 is always HTTP 400. With more than 10 questions, page -1 succeeds with Python's negative slice: the 20th through the 11th questions from the end. |
| `Seqs.FindIndex` | projects/02_trivia_api/starter/backend/flaskr/__init__.py:89 | The lookup that stands for every `query.get(id)` (here, at line 162, and at lines 227 and 356-357 of `app.py`). It finds nothing exactly when no row satisfies the test. Otherwise it gives the position of the first row that does. |
| `Trivia.DeleteQuestion` | projects/02_trivia_api/starter/backend/flaskr/__init__.py:85-97 | Id 0 gives "Question #ID is required." under HTTP 200 and leaves the store unchanged. An unknown id gives HTTP 400 and leaves the store unchanged. An existing id removes that question and echoes it. |
| `Trivia.DeleteRemovesOnlyTarget` | projects/02_trivia_api/starter/backend/flaskr/__init__.py:88-93 | On a valid store, the store stays valid. A successful delete removes exactly the question with that id and shrinks the store by one. A failed delete changes nothing. |
| `Trivia.AllTruthy` | projects/02_trivia_api/starter/backend/flaskr/__init__.py:107-110 | The `and` chain of lookups returns true exactly when every key is present and truthy. It raises KeyError exactly when it reaches a missing key and every earlier key was present and truthy. |
| `Trivia.NewQuestion` | projects/02_trivia_api/starter/backend/flaskr/__init__.py:111 | `Question(**form_data)` raises TypeError exactly when the body has a key other than the four fields. It succeeds exactly when the keys are exactly those four, the question and answer are strings, and category and difficulty are integers in the 32-bit range of an `integer` column. The record then carries the next id and the four values. |
| `Trivia.AddQuestion` | projects/02_trivia_api/starter/backend/flaskr/__init__.py:102-119 | A missing body or a missing key reached in the chain gives HTTP 400. A falsy field gives the "required fields" envelope. Both leave the store unchanged. When all four fields are truthy but `Question(**form_data)` raises (a key other than the four fields, a value of the wrong JSON type, or an integer outside the 32-bit range), the reply is HTTP 400 and the store is unchanged. Otherwise the question is appended with the next id and echoed back with envelope code 200. The store stays valid in every case. The envelope is well formed: a success envelope has data and no message, an error envelope a message and no data. |
| `Trivia.AddQuestionFalsyAndMissing` | projects/02_trivia_api/starter/backend/flaskr/__init__.py:107-119 | Difficulty 0 yields the "required fields" envelope under HTTP 200. A body holding only `question` yields HTTP 400. |
| `Trivia.AddQuestionOutOfRange` | projects/02_trivia_api/starter/backend/flaskr/__init__.py:107-119 | A difficulty of 2^31, one past the largest 32-bit integer, makes the insert fail: HTTP 400, and nothing is inserted. |
| `Trivia.AddQuestionExtraKey` | projects/02_trivia_api/starter/backend/flaskr/__init__.py:107-119 | Four valid, truthy fields plus a fifth key give HTTP 400 and insert nothing. |
| `Trivia.SearchQuestions` | projects/02_trivia_api/starter/backend/flaskr/__init__.py:129-148 | A missing body or `search_term` gives HTTP 400, and a falsy term gives "Empty search query.". A truthy term returns exactly the questions, in store order, whose text contains the term ignoring case. The total is their count. The envelope is well formed: a success envelope has data and no message, an error envelope a message and no data. |
| `Trivia.MatchesTermIsSubstring` | projects/02_trivia_api/starter/backend/flaskr/__init__.py:135 | A question matches exactly when the lower-cased term is a substring of the lower-cased question text. |
| `Trivia.SearchSingleHit` | projects/02_trivia_api/starter/backend/flaskr/__init__.py:132-143 | A term that matches exactly one question returns exactly that question, with total 1. |
| `Trivia.CategoryQuestions` | projects/02_trivia_api/starter/backend/flaskr/__init__.py:153-174 | Id 0 gives "Invalid category #ID is provided." (HTTP 200, code 400). A category with no questions gives "No questions are founds inside this category.". Otherwise the reply, with envelope code 200, holds the questions of that category in store order, with their count and the category's type. It is HTTP 400 if the category row is missing. The envelope is well formed: a success envelope has data and no message, an error envelope a message and no data. |
| `Trivia.QuizCandidates` | projects/02_trivia_api/starter/backend/flaskr/__init__.py:189-193 | The candidates are exactly the questions that match the category (any category when `category_id == 0`) and whose id is not in `previous_questions`. The query fails exactly when the ids or the category are not integers. |
| `Trivia.Quiz` | projects/02_trivia_api/starter/backend/flaskr/__init__.py:183-204 | The reply is HTTP 200 exactly when both keys are present, the parameter check passes and the query succeeds. Every other reply is HTTP 400, including the rejected parameters, whose `success_response(message=…)` raises. A picked question is a candidate. Data is null exactly when every question of the category was already asked. The envelope is well formed: a success envelope has data and no message, an error envelope a message and no data. |
| `Python.FalsyZero` | projects/02_trivia_api/starter/backend/flaskr/__init__.py:189 | `category_id == 0` implies that it is falsy. The falsy values that are not `== 0` are exactly null, `""` and `[]`. |
| `Python.Slice` | projects/02_trivia_api/starter/backend/flaskr/__init__.py:65 | Both bounds are normalised as Python does (negative bounds count from the end, and bounds are clamped to the length). The result has length `max(0, b - a)` for the normalised bounds `a` and `b`, and its item `i` is item `a + i` of the sequence. |
| `Python.SliceNonNegative` | projects/02_trivia_api/starter/backend/flaskr/__init__.py:65 | For 0 ≤ start ≤ stop, Python's slice is the ordinary subsequence with stop clamped to the length. It is empty when start is past the end. |
| `Text.OccursIsSubstring` | projects/02_trivia_api/starter/backend/flaskr/__init__.py:135 | The scanning matcher succeeds exactly when the term occurs at some position of the text. |
| `Text.JoinSplit` | projects/01_fyyur/starter_code/app.py:157 | Joining the parts of a split with the separator gives back the original string. |
| `Text.SplitJoin` | projects/01_fyyur/starter_code/app.py:157 | Splitting a join gives back the parts, provided no part contains the separator. |
| `Fyyur.VenueUpcomingShows` | projects/01_fyyur/starter_code/app.py:55-57 | A show is listed exactly when it is booked at the venue, its artist exists (the inner join), and it starts after `now`. |
| `Fyyur.VenuePastShows` | projects/01_fyyur/starter_code/app.py:63-65 | A show is listed exactly when it is booked at the venue, its artist exists, and it starts at or before `now`. |
| `Fyyur.VenueShowsPartition` | projects/01_fyyur/starter_code/app.py:55-69 | Under the foreign keys, and for a fixed `now`, each show of a venue is either upcoming (starts after `now`) or past, never both. The two counts add up to the venue's show count. |
| `Fyyur.VenueClockReads` | projects/01_fyyur/starter_code/app.py:55-69 | Each property reads the clock again. With upcoming read at `t1` and past at a later `t2`, the shows starting in `(t1, t2]` are in both lists, and the counts add up to the venue's shows plus those. Read in the other order, those shows are in neither list, and the counts add up to the venue's shows minus those. |
| `Fyyur.ArtistUpcomingShows` | projects/01_fyyur/starter_code/app.py:92-94 | A show is listed exactly when it is the artist's, has a venue that exists (the inner join), and starts after `now`. |
| `Fyyur.ArtistPastShows` | projects/01_fyyur/starter_code/app.py:100-102 | A show is listed exactly when it is the artist's, has a venue that exists, and starts at or before `now`. |
| `Fyyur.ArtistShowsPartition` | projects/01_fyyur/starter_code/app.py:92-106 | The artist's upcoming and past counts add up to the number of the artist's shows that have a venue. A show with a null venue is in neither list. |
| `Fyyur.ArtistClockReads` | projects/01_fyyur/starter_code/app.py:92-106 | The same two clock reads on an artist's page: read upcoming first, the artist's shows in `(t1, t2]` are counted twice; read past first, they are not counted at all. |
| `Fyyur.SearchVenues` | projects/01_fyyur/starter_code/app.py:164-173 | A missing `search_term` gives HTTP 400. Otherwise the page lists exactly the venues, in table order, whose name contains the term ignoring case, and `count` equals the length of `data`. The page also gets the search term. |
| `Fyyur.SearchArtists` | projects/01_fyyur/starter_code/app.py:248-256 | The same as `SearchVenues`, for artists. |
| `Fyyur.EmptySearchListsAll` | projects/01_fyyur/starter_code/app.py:167 | An empty term matches every name, so the whole table is listed. |
| `Fyyur.VenueNameFallback` | projects/01_fyyur/starter_code/app.py:360 | With unique venue ids, the listed venue name is the name of the show's venue when it exists. It is "Removed/Unknown venue" when the venue id is null or the venue is gone. |
| `Fyyur.ListShows` | projects/01_fyyur/starter_code/app.py:351-367 | The listing has one entry per show, in order, with the show's ids and start time, the fallback venue name, and its artist's name and image. It fails with HTTP 500 exactly when some show's artist is missing, which the foreign keys rule out. |
| `Fyyur.DeleteVenue` | projects/01_fyyur/starter_code/app.py:223-239 | The location is `'/'` exactly when the id parses and names an existing venue, and `''` otherwise, with the data unchanged. On success only that venue is removed from its place, the other venues keep their order, artists are untouched, and its shows lose their venue id. |
| `Fyyur.DeleteVenueKeepsIntegrity` | projects/01_fyyur/starter_code/app.py:223-239 | Deleting a venue keeps the foreign-key and primary-key guarantees. No venue has that id afterwards. Every show that was booked there is then listed as "Removed/Unknown venue". |
| `Fyyur.DatetimePattern` | projects/01_fyyur/starter_code/app.py:121-127 | `'full'` and `'medium'` select their fixed patterns, and the default argument is `'medium'`. Any other format string is used unchanged. |
| `Grouping.FirstSeen` | projects/01_fyyur/starter_code/app.py:146-152 | The dict's keys are exactly the keys that occur, each once, ordered by where each first occurs. |
| `Grouping.Members` | projects/01_fyyur/starter_code/app.py:148-152 | A key's list holds exactly the rows with that key. It is empty exactly when no row has that key. |
| `Grouping.GroupsPartition` | projects/01_fyyur/starter_code/app.py:146-152 | No key has two groups and no group is empty. Every row is in the group of its own key, and a group holds only rows with its key. |
| `Grouping.MembersFilter` | projects/01_fyyur/starter_code/app.py:148-152 | A group's rows are the table read through any filter that selects exactly that key, so they keep table order. |
| `Grouping.GroupKeySeenEarlier` | projects/01_fyyur/starter_code/app.py:146-152 | A row whose key belongs to a later group comes after some row with the key of each earlier group. |
| `Grouping.FindGroup` | projects/01_fyyur/starter_code/app.py:148 | The lookup `setdefault` performs returns the position of the group with the key, or the number of groups when no group has that key. |
| `Grouping.GroupBy` | projects/01_fyyur/starter_code/app.py:146-152 | The `setdefault(...).append(...)` loop computes the reference grouping. |
| `Grouping.GroupsRekey` | projects/01_fyyur/starter_code/app.py:148 | Grouping by `h(f(x))`, with `h` one-to-one on the keys that occur, gives the groups by `f` with their keys renamed. |
| `Areas.AreasAsWritten` | projects/01_fyyur/starter_code/app.py:143-163 | The handler as written has one area per distinct joined key, and no area's city or state contains `'_'`. So a venue whose city or state contains `'_'` is never shown under its own location. |
| `Areas.AsWrittenCover` | projects/01_fyyur/starter_code/app.py:148-160 | As written, every venue is listed in an area labelled with parts 0 and 1 of `(city + '_' + state).split('_')`. |
| `Areas.AreaKeysSeparated` | projects/01_fyyur/starter_code/app.py:148-157 | Every dict key contains `'_'`, so `address[1]` exists. |
| `Areas.AreasDistinct` | projects/01_fyyur/starter_code/app.py:145-163 | No (city, state) has two areas, and no area is empty. |
| `Areas.AreasCover` | projects/01_fyyur/starter_code/app.py:145-163 | Every venue is listed in the area of its own city and state. |
| `Areas.AreasContents` | projects/01_fyyur/starter_code/app.py:145-163 | An area lists exactly the venues of its city and state, in table order. |
| `Areas.AreasFirstSeenOrder` | projects/01_fyyur/starter_code/app.py:145-163 | Areas appear in the order in which their location is first seen among the venues. |
| `Areas.SplitKeyRoundTrip` | projects/01_fyyur/starter_code/app.py:148-160 | Splitting `city + '_' + state` on `'_'` gives back `[city, state]` exactly when neither contains `'_'`. |
| `Areas.AsWrittenAgreesWithoutSeparator` | projects/01_fyyur/starter_code/app.py:145-163 | When no city or state contains `'_'`, the handler's areas are the areas by location. |
| `Areas.AsWrittenMergesLocations` | projects/01_fyyur/starter_code/app.py:148-160 | Venues in ("a_b", "c") and ("a", "b_c") end up in one area labelled ("a", "b"), which is the location of neither. |
| `Areas.LocationsKeepClashingVenuesApart` | projects/01_fyyur/starter_code/app.py:145-163 | Grouped by location, the same two venues get two areas, each labelled with its own location. |

## Left out

- HTTP plumbing is not modelled: routing, request parsing, CORS, the `after_request` headers, the 404 and 422 handlers, and logging. A request body is given as an optional decoded JSON object, and a form field as an optional string.
- The database session is not modelled: commit, rollback, `close` and migrations. Each table is an immutable sequence in store order, and query results are taken in that order. A commit that fails is not modelled.
- `models.py` is not part of this model. `Question.format()` and `Category.format()` are the identity. The `Question` constructor is taken to accept exactly the keyword arguments `question`, `answer`, `category` and `difficulty`, so `Question(**form_data)` raises TypeError for any other key. With exactly those keys it builds a question when the question and answer are strings and category and difficulty are integers in the range of a 32-bit `integer` column, as PostgreSQL's is. Otherwise the insert raises a store error.
- Trivia.AddQuestion: rejects a body whose four fields have the wrong JSON type. The real store may coerce such a value, for instance a numeric string into an integer column. The next id is unbounded: the overflow of the id sequence past 2^31 - 1 is not modelled.
- Trivia.QuizCandidates: treats any non-integer id in `previous_questions`, and any non-integer non-zero `category_id`, as a failed query (HTTP 400). A real database may coerce numeric strings, or compare a null id differently.
- Trivia.SearchQuestions: `%` and `_` inside a search term are matched literally, not as `ILIKE` wildcards. Case folding covers ASCII letters only. `str()` of a JSON value does not escape quotes inside strings.
- Fyyur.SearchVenues: the same `ILIKE` and case-folding limits as the trivia search.
- Fyyur.SearchArtists: the same `ILIKE` and case-folding limits as the trivia search.
- Trivia.Quiz: `random.choice` is a nondeterministic pick. Only membership in the candidate set is specified, not the distribution.
- Floats and nested objects in JSON bodies are not represented.
- `datetime.utcnow()` becomes a parameter `now`. Times are integers with the same order. Each property access reads the clock again; `Fyyur.VenueClockReads` and `Fyyur.ArtistClockReads` cover two reads, and no promise is made about more than two.
- Fyyur.VenueShowsPartition: the partition holds for one instant `now` only. The upcoming and past lists read the clock separately, and the counts can then disagree with the venue's show count (see `Fyyur.VenueClockReads`).
- Fyyur.ArtistShowsPartition: the partition holds for one instant `now` only. The artist's lists read the clock separately as well (see `Fyyur.ArtistClockReads`).
- `dateutil` parsing and `babel` formatting are foreign calls. Only the choice of pattern in `format_datetime` is modelled.
- Templates, flash messages, and the create, edit and single-record handlers of the booking site are not modelled. They copy form fields into a record and commit it, or render one record.
- Fyyur.DeleteVenue: the path segment is given already parsed (`None` when it is not an integer). `print(venue)` is output only and is omitted.
- Fyyur.ListShows: a missing artist is reported as HTTP 500. The foreign key on `artist_id` rules that case out.
- The React front end and `script.js` are not part of this model.

## Findings

| source | as written | input that shows it | evidently intended | confidence | as-written member | corrected member |
|---|---|---|---|---|---|---|
| projects/01_fyyur/starter_code/app.py:148-160 | Venues are grouped under the string `city + '_' + state`, and each area's city and state are read back as parts 0 and 1 of `key.split('_')` | A venue in city "a_b", state "c" and a venue in city "a", state "b_c" share the key "a_b_c". They are listed together in one area labelled city "a", state "b". | One area per (city, state), labelled with that city and state | not executed | `Areas.AsWrittenMergesLocations` | `Areas.AreasCover` |

`Areas.AreasAsWritten` is the handler as written. `Areas.Areas` groups by the (city, state) pair. `Areas.AreasDistinct`, `Areas.AreasCover`, `Areas.AreasContents` and `Areas.AreasFirstSeenOrder` prove the intended behaviour about it. `Areas.AsWrittenAgreesWithoutSeparator` shows the two definitions agree whenever no city or state contains `'_'`.

=== FILE: envelopes.dfy ===
/**
 * The JSON envelope every trivia API response carries (backend/utils.py):
 * `{success, data, code}` on success and `{success, message, code}` on
 * error. A field the dict does not contain is `None` here.
 */
module Envelopes {
  import opened Python

  const DefaultSuccessCode := 200
  const DefaultErrorCode := 400
  const DefaultErrorMessage :=
    "Bad request as maybe the resource requested is not found, missing fields or wrong request."

  datatype Envelope<+D> = Envelope(success: bool, data: Option<D>, message: Option<string>, code: int)

  /** The shape a client relies on: a success envelope has data and no
      message, an error envelope has a message and no data. */
  predicate WellFormed<D>(e: Envelope<D>) {
    (e.success ==> e.data.Some? && e.message.None?) &&
    (!e.success ==> e.data.None? && e.message.Some?)
  }

  /** `success_response(data, code = 200)`. */
  function SuccessResponse<D>(data: D, code: Arg<int>): (e: Envelope<D>)
    ensures WellFormed(e) && e.success
    ensures e.data == Some(data)
    ensures e.code == if code.Given? then code.value else DefaultSuccessCode
  {
    Envelope(true, Some(data), None, match code case Given(c) => c case Omitted => DefaultSuccessCode)
  }

  /** `error_response(message = DefaultErrorMessage, code = 400)`. */
  function ErrorResponse<D>(message: Arg<string>, code: Arg<int>): (e: Envelope<D>)
    ensures WellFormed(e) && !e.success
    ensures e.message == Some(if message.Given? then message.value else DefaultErrorMessage)
    ensures e.code == if code.Given? then code.value else DefaultErrorCode
  {
    Envelope(false, None,
             Some(match message case Given(m) => m case Omitted => DefaultErrorMessage),
             match code case Given(c) => c case Omitted => DefaultErrorCode)
  }

  /** A call of `success_response` as written at a call site. The function
      takes the positional `data` and the keyword `code` only, so a call
      without `data` or with a `message` keyword raises TypeError. */
  function CallSuccessResponse<D>(data: Arg<D>, code: Arg<int>, message: Arg<string>): (r: Outcome<Envelope<D>>)
    ensures r.Raised? <==> data.Omitted? || message.Given?
    ensures r.Raised? ==> r.exc == TypeError
    ensures r.Returned? ==> r.value.success && r.value.data == Some(data.value) && r.value.message.None?
    ensures r.Returned? ==> r.value == SuccessResponse(data.value, code)
    ensures r.Returned? ==> r.value.code == if code.Given? then code.value else DefaultSuccessCode
  {
    if data.Omitted? || message.Given? then Raised(TypeError)
    else Returned(SuccessResponse(data.value, code))
  }
}

=== FILE: fyyur.dfy ===
/**
 * The computations of the booking site (01_fyyur/starter_code/app.py) over
 * an in-memory copy of its three tables: upcoming and past shows against a
 * reference time, name search, the show listing, venue deletion and the
 * choice of a date pattern. Rendering a template is modelled as producing
 * the context variables it is given.
 */
module Fyyur {
  import opened Python
  import opened Text
  import opened Seqs

  const UnknownVenueName := "Removed/Unknown venue"
  const FullPattern := "EEEE MMMM, d, y 'at' h:mma"
  const MediumPattern := "EE MM, dd, y h:mma"

  /** A point in time; `datetime` values are ordered as these integers are. */
  type Time = int

  datatype Venue = Venue(
    id: int, name: string, city: string, state: string, address: string, phone: string,
    imageLink: Option<string>, facebookLink: Option<string>, genres: string,
    website: Option<string>, seekingTalent: bool, seekingDescription: Option<string>)

  datatype Artist = Artist(
    id: int, name: string, city: string, state: string, phone: string, genres: string,
    imageLink: Option<string>, facebookLink: Option<string>,
    website: Option<string>, seekingVenue: bool, seekingDescription: Option<string>)

  /** A show must name its artist; its venue may be null. */
  datatype Show = Show(id: int, artistId: int, venueId: Option<int>, startTime: Time)

  /** The three tables, in store order. */
  datatype Booking = Booking(venues: seq<Venue>, artists: seq<Artist>, shows: seq<Show>)

  /** A rendered page's context, or an HTTP error status. */
  datatype Page<+C> = Rendered(context: C) | HttpError(status: int)

  predicate VenueExists(b: Booking, id: int) {
    exists v :: v in b.venues && v.id == id
  }

  predicate ArtistExists(b: Booking, id: int) {
    exists a :: a in b.artists && a.id == id
  }

  /** What the foreign keys of the Show table guarantee. */
  predicate Integrity(b: Booking) {
    forall s :: s in b.shows ==>
      ArtistExists(b, s.artistId) && (s.venueId.Some? ==> VenueExists(b, s.venueId.value))
  }

  /** What the primary keys guarantee. */
  predicate UniqueIds(b: Booking) {
    && (forall i, j :: 0 <= i < j < |b.venues| ==> b.venues[i].id != b.venues[j].id)
    && (forall i, j :: 0 <= i < j < |b.artists| ==> b.artists[i].id != b.artists[j].id)
  }

  //----------------------------------------------------------------------
  // Upcoming and past shows
  //----------------------------------------------------------------------

  predicate IsUpcoming(s: Show, now: Time) {
    s.startTime > now
  }

  /** All shows booked at the venue. */
  function VenueShows(b: Booking, v: Venue): seq<Show> {
    Filter(b.shows, (s: Show) => s.venueId == Some(v.id))
  }

  /** `Venue.upcoming_shows`: the venue's shows joined with their artist,
      starting after `now`, in store order. */
  function VenueUpcomingShows(b: Booking, v: Venue, now: Time): (r: seq<Show>)
    ensures forall s :: s in r <==>
              s in b.shows && s.venueId == Some(v.id) && ArtistExists(b, s.artistId) && s.startTime > now
  {
    Filter(b.shows, (s: Show) => s.venueId == Some(v.id) && ArtistExists(b, s.artistId) && IsUpcoming(s, now))
  }

  /** `Venue.past_shows`: the same join, starting at or before `now`. */
  function VenuePastShows(b: Booking, v: Venue, now: Time): (r: seq<Show>)
    ensures forall s :: s in r <==>
              s in b.shows && s.venueId == Some(v.id) && ArtistExists(b, s.artistId) && s.startTime <= now
  {
    Filter(b.shows, (s: Show) => s.venueId == Some(v.id) && ArtistExists(b, s.artistId) && !IsUpcoming(s, now))
  }

  /** For a fixed `now`, every show of a venue is either upcoming or past and
      not both, so the two counts add up to the venue's number of shows. */
  lemma VenueShowsPartition(b: Booking, v: Venue, now: Time)
    requires Integrity(b)
    ensures |VenueUpcomingShows(b, v, now)| + |VenuePastShows(b, v, now)| == |VenueShows(b, v)|
    ensures forall s :: s in VenueShows(b, v) ==>
              (s in VenueUpcomingShows(b, v, now) <==> IsUpcoming(s, now)) &&
              (s in VenuePastShows(b, v, now) <==> !IsUpcoming(s, now))
  {
    FilterPartition(b.shows,
      (s: Show) => s.venueId == Some(v.id),
      (s: Show) => s.venueId == Some(v.id) && ArtistExists(b, s.artistId) && IsUpcoming(s, now),
      (s: Show) => s.venueId == Some(v.id) && ArtistExists(b, s.artistId) && !IsUpcoming(s, now));
  }

  /** The venue's shows that start after `t1` and no later than `t2`. */
  function VenueShowsBetween(b: Booking, v: Venue, t1: Time, t2: Time): seq<Show> {
    Filter(b.shows, (s: Show) => s.venueId == Some(v.id) && t1 < s.startTime <= t2)
  }

  /** Each property access reads the clock again, so the upcoming and the
      past list of one page may be computed at two instants `t1 <= t2`. Read
      upcoming first, the shows starting in `(t1, t2]` are in both lists and
      the counts add up to more than the venue's shows; read past first, they
      are in neither and the counts add up to fewer. */
  lemma VenueClockReads(b: Booking, v: Venue, t1: Time, t2: Time)
    requires Integrity(b) && t1 <= t2
    ensures |VenueUpcomingShows(b, v, t1)| + |VenuePastShows(b, v, t2)|
            == |VenueShows(b, v)| + |VenueShowsBetween(b, v, t1, t2)|
    ensures |VenuePastShows(b, v, t1)| + |VenueUpcomingShows(b, v, t2)| + |VenueShowsBetween(b, v, t1, t2)|
            == |VenueShows(b, v)|
    ensures forall s :: s in VenueShowsBetween(b, v, t1, t2) ==>
              && s in VenueUpcomingShows(b, v, t1) && s in VenuePastShows(b, v, t2)
              && s !in VenuePastShows(b, v, t1) && s !in VenueUpcomingShows(b, v, t2)
  {
    FilterOverlap(b.shows,
      (s: Show) => s.venueId == Some(v.id),
      (s: Show) => s.venueId == Some(v.id) && ArtistExists(b, s.artistId) && IsUpcoming(s, t1),
      (s: Show) => s.venueId == Some(v.id) && ArtistExists(b, s.artistId) && !IsUpcoming(s, t2),
      (s: Show) => s.venueId == Some(v.id) && t1 < s.startTime <= t2);
    FilterPartition(b.shows,
      (s: Show) => s.venueId == Some(v.id) && !(t1 < s.startTime <= t2),
      (s: Show) => s.venueId == Some(v.id) && ArtistExists(b, s.artistId) && !IsUpcoming(s, t1),
      (s: Show) => s.venueId == Some(v.id) && ArtistExists(b, s.artistId) && IsUpcoming(s, t2));
    FilterPartition(b.shows,
      (s: Show) => s.venueId == Some(v.id),
      (s: Show) => s.venueId == Some(v.id) && t1 < s.startTime <= t2,
      (s: Show) => s.venueId == Some(v.id) && !(t1 < s.startTime <= t2));
  }

  /** The artist's shows that have a venue. */
  function ArtistShowsWithVenue(b: Booking, a: Artist): seq<Show> {
    Filter(b.shows, (s: Show) => s.artistId == a.id && s.venueId.Some?)
  }

  /** `Artist.upcoming_shows`: the artist's shows joined with their venue,
      starting after `now`, in store order. */
  function ArtistUpcomingShows(b: Booking, a: Artist, now: Time): (r: seq<Show>)
    ensures forall s :: s in r <==>
              s in b.shows && s.artistId == a.id && s.venueId.Some? && VenueExists(b, s.venueId.value) && s.startTime > now
  {
    Filter(b.shows, (s: Show) => s.artistId == a.id && s.venueId.Some? && VenueExists(b, s.venueId.value) && IsUpcoming(s, now))
  }

  /** `Artist.past_shows`: the same join, starting at or before `now`. */
  function ArtistPastShows(b: Booking, a: Artist, now: Time): (r: seq<Show>)
    ensures forall s :: s in r <==>
              s in b.shows && s.artistId == a.id && s.venueId.Some? && VenueExists(b, s.venueId.value) && s.startTime <= now
  {
    Filter(b.shows, (s: Show) => s.artistId == a.id && s.venueId.Some? && VenueExists(b, s.venueId.value) && !IsUpcoming(s, now))
  }

  /** The inner join on the venue drops the artist's shows whose venue is
      null: they are neither upcoming nor past, and the two counts add up to
      the artist's shows that have a venue. */
  lemma ArtistShowsPartition(b: Booking, a: Artist, now: Time)
    requires Integrity(b)
    ensures |ArtistUpcomingShows(b, a, now)| + |ArtistPastShows(b, a, now)| == |ArtistShowsWithVenue(b, a)|
    ensures forall s :: s in b.shows && s.venueId.None? ==>
              s !in ArtistUpcomingShows(b, a, now) && s !in ArtistPastShows(b, a, now)
  {
    FilterPartition(b.shows,
      (s: Show) => s.artistId == a.id && s.venueId.Some?,
      (s: Show) => s.artistId == a.id && s.venueId.Some? && VenueExists(b, s.venueId.value) && IsUpcoming(s, now),
      (s: Show) => s.artistId == a.id && s.venueId.Some? && VenueExists(b, s.venueId.value) && !IsUpcoming(s, now));
  }

  /** The artist's shows with a venue that start after `t1` and no later
      than `t2`. */
  function ArtistShowsBetween(b: Booking, a: Artist, t1: Time, t2: Time): seq<Show> {
    Filter(b.shows, (s: Show) => s.artistId == a.id && s.venueId.Some? && t1 < s.startTime <= t2)
  }

  /** The same two clock reads on an artist's page: read upcoming first, the
      shows in `(t1, t2]` are counted twice; read past first, not at all. */
  lemma ArtistClockReads(b: Booking, a: Artist, t1: Time, t2: Time)
    requires Integrity(b) && t1 <= t2
    ensures |ArtistUpcomingShows(b, a, t1)| + |ArtistPastShows(b, a, t2)|
            == |ArtistShowsWithVenue(b, a)| + |ArtistShowsBetween(b, a, t1, t2)|
    ensures |ArtistPastShows(b, a, t1)| + |ArtistUpcomingShows(b, a, t2)| + |ArtistShowsBetween(b, a, t1, t2)|
            == |ArtistShowsWithVenue(b, a)|
    ensures forall s :: s in ArtistShowsBetween(b, a, t1, t2) ==>
              && s in ArtistUpcomingShows(b, a, t1) && s in ArtistPastShows(b, a, t2)
              && s !in ArtistPastShows(b, a, t1) && s !in ArtistUpcomingShows(b, a, t2)
  {
    FilterOverlap(b.shows,
      (s: Show) => s.artistId == a.id && s.venueId.Some?,
      (s: Show) => s.artistId == a.id && s.venueId.Some? && VenueExists(b, s.venueId.value) && IsUpcoming(s, t1),
      (s: Show) => s.artistId == a.id && s.venueId.Some? && VenueExists(b, s.venueId.value) && !IsUpcoming(s, t2),
      (s: Show) => s.artistId == a.id && s.venueId.Some? && t1 < s.startTime <= t2);
    FilterPartition(b.shows,
      (s: Show) => s.artistId == a.id && s.venueId.Some? && !(t1 < s.startTime <= t2),
      (s: Show) => s.artistId == a.id && s.venueId.Some? && VenueExists(b, s.venueId.value) && !IsUpcoming(s, t1),
      (s: Show) => s.artistId == a.id && s.venueId.Some? && VenueExists(b, s.venueId.value) && IsUpcoming(s, t2));
    FilterPartition(b.shows,
      (s: Show) => s.artistId == a.id && s.venueId.Some?,
      (s: Show) => s.artistId == a.id && s.venueId.Some? && t1 < s.startTime <= t2,
      (s: Show) => s.artistId == a.id && s.venueId.Some? && !(t1 < s.startTime <= t2));
  }

  //----------------------------------------------------------------------
  // Search
  //----------------------------------------------------------------------

  /** The context of a search page: `results={count, data}` and the
      `search_term` it was asked for. */
  datatype SearchResults<+T> = SearchResults(count: nat, data: seq<T>, searchTerm: string)

  /** `POST /venues/search`; `term` is `None` when the form has no
      `search_term`, which Flask answers with HTTP 400. */
  function SearchVenues(b: Booking, term: Option<string>): (r: Page<SearchResults<Venue>>)
    ensures term.None? ==> r == HttpError(400)
    ensures term.Some? ==>
              && r.Rendered? && r.context.count == |r.context.data| && r.context.searchTerm == term.value
              && r.context.data == Filter(b.venues, (v: Venue) => ContainsIgnoringCase(v.name, term.value))
              && forall v :: v in r.context.data <==> v in b.venues && ContainsIgnoringCase(v.name, term.value)
  {
    match term
    case None => HttpError(400)
    case Some(t) =>
      var found := Filter(b.venues, (v: Venue) => ContainsIgnoringCase(v.name, t));
      Rendered(SearchResults(|found|, found, t))
  }

  /** `POST /artists/search`. */
  function SearchArtists(b: Booking, term: Option<string>): (r: Page<SearchResults<Artist>>)
    ensures term.None? ==> r == HttpError(400)
    ensures term.Some? ==>
              && r.Rendered? && r.context.count == |r.context.data| && r.context.searchTerm == term.value
              && r.context.data == Filter(b.artists, (a: Artist) => ContainsIgnoringCase(a.name, term.value))
              && forall a :: a in r.context.data <==> a in b.artists && ContainsIgnoringCase(a.name, term.value)
  {
    match term
    case None => HttpError(400)
    case Some(t) =>
      var found := Filter(b.artists, (a: Artist) => ContainsIgnoringCase(a.name, t));
      Rendered(SearchResults(|found|, found, t))
  }

  /** Neither search rejects an empty term: `'%%'` matches every name, so
      the whole table is listed. */
  lemma EmptySearchListsAll(b: Booking)
    ensures SearchVenues(b, Some("")) == Rendered(SearchResults(|b.venues|, b.venues, ""))
    ensures SearchArtists(b, Some("")) == Rendered(SearchResults(|b.artists|, b.artists, ""))
  {
    FilterAll(b.venues, (v: Venue) => ContainsIgnoringCase(v.name, ""));
    FilterAll(b.artists, (a: Artist) => ContainsIgnoringCase(a.name, ""));
  }

  //----------------------------------------------------------------------
  // Show listing
  //----------------------------------------------------------------------

  datatype ShowEntry = ShowEntry(
    venueId: Option<int>, venueName: string,
    artistId: int, artistName: string, artistImageLink: Option<string>,
    startTime: Time)

  /** `show.venue`: the venue the show's `venue_id` refers to, if any. */
  function FindVenue(venues: seq<Venue>, id: Option<int>): Option<Venue> {
    if id.None? then None
    else match FindIndex(venues, (v: Venue) => v.id == id.value)
      case None => None
      case Some(k) => Some(venues[k])
  }

  /** `show.artist`. */
  function FindArtist(artists: seq<Artist>, id: int): Option<Artist> {
    match FindIndex(artists, (a: Artist) => a.id == id)
    case None => None
    case Some(k) => Some(artists[k])
  }

  /** The venue name the listing shows. */
  function VenueNameOf(b: Booking, s: Show): string {
    match FindVenue(b.venues, s.venueId)
    case Some(v) => v.name
    case None => UnknownVenueName
  }

  /** The listed venue name is the name of the show's venue when that venue
      exists, and "Removed/Unknown venue" when the show has no venue or its
      venue is gone. */
  lemma VenueNameFallback(b: Booking, s: Show)
    requires UniqueIds(b)
    ensures s.venueId.None? || !VenueExists(b, s.venueId.value) ==> VenueNameOf(b, s) == UnknownVenueName
    ensures forall v :: v in b.venues && s.venueId == Some(v.id) ==> VenueNameOf(b, s) == v.name
  {
    forall v | v in b.venues && s.venueId == Some(v.id) ensures VenueNameOf(b, s) == v.name {
      var w := FindVenue(b.venues, s.venueId).value;
      var i :| 0 <= i < |b.venues| && b.venues[i] == v;
      var j :| 0 <= j < |b.venues| && b.venues[j] == w;
      assert i == j;
    }
  }

  /** `GET /shows`: one entry per show, in store order. A show whose artist is
      missing makes `show_artist.name` raise, which Flask answers with 500. */
  method ListShows(b: Booking) returns (r: Page<seq<ShowEntry>>)
    ensures r.HttpError? <==> exists s :: s in b.shows && !ArtistExists(b, s.artistId)
    ensures r.HttpError? ==> r.status == 500
    ensures Integrity(b) ==> r.Rendered?
    ensures r.Rendered? ==>
              && |r.context| == |b.shows|
              && forall i :: 0 <= i < |b.shows| ==>
                   var s, e := b.shows[i], r.context[i];
                   && e.venueId == s.venueId && e.artistId == s.artistId && e.startTime == s.startTime
                   && e.venueName == VenueNameOf(b, s)
                   && (exists a :: a in b.artists && a.id == s.artistId && e.artistName == a.name && e.artistImageLink == a.imageLink)
  {
    var entries: seq<ShowEntry> := [];
    var i := 0;
    while i < |b.shows|
      invariant 0 <= i <= |b.shows|
      invariant |entries| == i
      invariant forall j :: 0 <= j < i ==> ArtistExists(b, b.shows[j].artistId)
      invariant forall j :: 0 <= j < i ==>
                  var s, e := b.shows[j], entries[j];
                  && e.venueId == s.venueId && e.artistId == s.artistId && e.startTime == s.startTime
                  && e.venueName == VenueNameOf(b, s)
                  && (exists a :: a in b.artists && a.id == s.artistId && e.artistName == a.name && e.artistImageLink == a.imageLink)
    {
      var s := b.shows[i];
      var artist := FindArtist(b.artists, s.artistId);
      if artist.None? {
        return HttpError(500);
      }
      entries := entries + [ShowEntry(s.venueId, VenueNameOf(b, s), s.artistId, artist.value.name,
                                      artist.value.imageLink, s.startTime)];
      i := i + 1;
    }
    return Rendered(entries);
  }

  //----------------------------------------------------------------------
  // Venue deletion
  //----------------------------------------------------------------------

  datatype Deleted = Deleted(booking: Booking, location: string)

  /** `Venue.query.get(id)`: the position of the venue with that id. */
  function FindVenueIndex(venues: seq<Venue>, id: int): Option<nat> {
    FindIndex(venues, (v: Venue) => v.id == id)
  }

  /** The show after its venue is deleted: the relationship's default
      cascade sets the foreign key of the venue's shows to null. */
  function Detach(s: Show, id: int): Show {
    if s.venueId == Some(id) then s.(venueId := None) else s
  }

  /** `DELETE /venues/<venue_id>`: the JSON body `{location}` is `'/'` when the
      delete went through and `''` when it raised. `venueId` is `None` when the
      path segment is not an integer. */
  function DeleteVenue(b: Booking, venueId: Option<int>): (r: Deleted)
    ensures r.location == "/" || r.location == ""
    ensures r.location == "/" <==> venueId.Some? && VenueExists(b, venueId.value)
    ensures r.location == "" ==> r.booking == b
    ensures r.location == "/" ==>
              && r.booking.artists == b.artists
              && |r.booking.venues| == |b.venues| - 1
              && (exists k :: 0 <= k < |b.venues| && b.venues[k].id == venueId.value &&
                    r.booking.venues == b.venues[..k] + b.venues[k + 1..])
              && (forall v :: v in r.booking.venues ==> v in b.venues)
              && (forall v :: v in b.venues && v.id != venueId.value ==> v in r.booking.venues)
              && |r.booking.shows| == |b.shows|
              && forall i :: 0 <= i < |b.shows| ==> r.booking.shows[i] == Detach(b.shows[i], venueId.value)
  {
    if venueId.None? then Deleted(b, "")
    else
      match FindVenueIndex(b.venues, venueId.value)
      case None =>
        // `db.session.delete(None)` raises
        Deleted(b, "")
      case Some(k) =>
        var id := venueId.value;
        var venues := b.venues[..k] + b.venues[k + 1..];
        assert forall v :: v in b.venues && v.id != id ==> v in venues by {
          forall v | v in b.venues && v.id != id ensures v in venues {
            var j :| 0 <= j < |b.venues| && b.venues[j] == v;
            if j < k { assert venues[j] == v; } else { assert venues[j - 1] == v; }
          }
        }
        var shows := seq(|b.shows|, i requires 0 <= i < |b.shows| => Detach(b.shows[i], id));
        Deleted(Booking(venues, b.artists, shows), "/")
  }

  /** The venues left after removing position `k`, where the only venue
      with the id stood, contain no venue with that id and keep their ids
      distinct. */
  lemma RemoveVenueAt(venues: seq<Venue>, k: nat, id: int)
    requires k < |venues| && venues[k].id == id
    requires forall i, j :: 0 <= i < j < |venues| ==> venues[i].id != venues[j].id
    ensures var rest := venues[..k] + venues[k + 1..];
            && (forall v :: v in rest ==> v.id != id && v in venues)
            && (forall v :: v in venues && v.id != id ==> v in rest)
            && (forall i, j :: 0 <= i < j < |rest| ==> rest[i].id != rest[j].id)
  {
    var rest := venues[..k] + venues[k + 1..];
    assert forall j :: 0 <= j < |rest| ==> rest[j] == if j < k then venues[j] else venues[j + 1];
    forall v | v in rest ensures v.id != id {
      var j :| 0 <= j < |rest| && rest[j] == v;
    }
  }

  /** Deleting a venue keeps both key guarantees; afterwards no venue has
      that id, and every show that was booked there is listed as
      "Removed/Unknown venue". */
  lemma DeleteVenueKeepsIntegrity(b: Booking, id: int)
    requires Integrity(b) && UniqueIds(b)
    ensures var after := DeleteVenue(b, Some(id)).booking;
            && Integrity(after) && UniqueIds(after)
            && !VenueExists(after, id)
            && forall i :: 0 <= i < |b.shows| && b.shows[i].venueId == Some(id) ==>
                 VenueNameOf(after, after.shows[i]) == UnknownVenueName
  {
    var r := DeleteVenue(b, Some(id));
    var after := r.booking;
    if r.location == "/" {
      var k := FindVenueIndex(b.venues, id).value;
      assert after.venues == b.venues[..k] + b.venues[k + 1..];
      RemoveVenueAt(b.venues, k, id);
      forall s | s in after.shows
        ensures ArtistExists(after, s.artistId) && (s.venueId.Some? ==> VenueExists(after, s.venueId.value))
      {
        var i :| 0 <= i < |after.shows| && after.shows[i] == s;
        var s0 := b.shows[i];
        assert s0 in b.shows;
        if s.venueId.Some? {
          var v :| v in b.venues && v.id == s.venueId.value;
          assert v in after.venues;
        }
      }
    }
  }

  //----------------------------------------------------------------------
  // Date formatting
  //----------------------------------------------------------------------

  /** The pattern `format_datetime` hands to the date formatter: the names
      'full' and 'medium' select fixed patterns, any other string is used as
      the pattern itself. `None` is the default argument, 'medium'. */
  function DatetimePattern(format: Option<string>): (pattern: string)
    ensures format == Some("full") ==> pattern == FullPattern
    ensures format == None || format == Some("medium") ==> pattern == MediumPattern
    ensures format.Some? && format.value != "full" && format.value != "medium" ==> pattern == format.value
  {
    var f := if format.Some? then format.value else "medium";
    if f == "full" then FullPattern
    else if f == "medium" then MediumPattern
    else f
  }
}

=== FILE: grouping.dfy ===
/**
 * Grouping rows under a key in first-seen order, the way
 * `areas.setdefault(key, []).append(row)` does over an insertion-ordered
 * dict: one group per distinct key, groups ordered by the first row that
 * carries their key, rows inside a group in table order.
 *
 * `Groups` is the reference definition; `GroupBy` is the loop of the
 * handler, proved to compute it.
 */
module Grouping {
  import opened Seqs

  datatype Group<K, T> = Group(key: K, members: seq<T>)

  predicate Distinct<K(==)>(ks: seq<K>) {
    forall i, j :: 0 <= i < j < |ks| ==> ks[i] != ks[j]
  }

  function KeysOf<T, K>(xs: seq<T>, f: T -> K): (ks: seq<K>)
    ensures |ks| == |xs|
    ensures forall i :: 0 <= i < |xs| ==> ks[i] == f(xs[i])
  {
    seq(|xs|, i requires 0 <= i < |xs| => f(xs[i]))
  }

  /** The distinct keys of `ks`, each at the place it is first seen. */
  function FirstSeen<K(==,!new)>(ks: seq<K>): (r: seq<K>)
    ensures forall k :: k in r <==> k in ks
    ensures Distinct(r)
    ensures forall i, j :: 0 <= i < j < |r| ==> IndexOf(ks, r[i]) < IndexOf(ks, r[j])
  {
    if |ks| == 0 then []
    else
      var n := |ks| - 1;
      assert ks == ks[..n] + [ks[n]];
      var d := FirstSeen(ks[..n]);
      if ks[n] in d then d else d + [ks[n]]
  }

  /** The rows of `xs` whose key is `k`, in table order. */
  function Members<T(!new), K(==,!new)>(xs: seq<T>, f: T -> K, k: K): (r: seq<T>)
    ensures |r| <= |xs|
    ensures forall x :: x in r <==> x in xs && f(x) == k
    ensures r == [] <==> forall x :: x in xs ==> f(x) != k
  {
    if |xs| == 0 then []
    else
      var n := |xs| - 1;
      assert xs == xs[..n] + [xs[n]];
      Members(xs[..n], f, k) + (if f(xs[n]) == k then [xs[n]] else [])
  }

  /** A group's rows are the table read through any filter that selects
      exactly the rows with its key, so they keep table order. */
  lemma {:induction false} MembersFilter<T(!new), K(!new)>(xs: seq<T>, f: T -> K, k: K, p: T -> bool)
    requires forall x :: x in xs ==> (p(x) <==> f(x) == k)
    ensures Members(xs, f, k) == Filter(xs, p)
  {
    if |xs| > 0 {
      var n := |xs| - 1;
      var init, x := xs[..n], xs[n];
      assert xs == init + [x];
      assert forall y :: y in init ==> y in xs;
      MembersFilter(init, f, k, p);
      FilterAppend(init, [x], p);
      assert [x][1..] == [];
      assert Filter([x], p) == if p(x) then [x] else [];
      assert Members(xs, f, k) == Members(init, f, k) + (if f(x) == k then [x] else []);
    }
  }

  /** Reference grouping: one group per distinct key in first-seen order,
      holding exactly the rows with that key. */
  function Groups<T(!new), K(==,!new)>(xs: seq<T>, f: T -> K): (gs: seq<Group<K, T>>)
  {
    var ks := FirstSeen(KeysOf(xs, f));
    seq(|ks|, i requires 0 <= i < |ks| => Group(ks[i], Members(xs, f, ks[i])))
  }

  /** The groups, read through the keys they are built from. */
  lemma GroupsShape<T(!new), K(!new)>(xs: seq<T>, f: T -> K)
    ensures |Groups(xs, f)| == |FirstSeen(KeysOf(xs, f))|
    ensures forall i :: 0 <= i < |Groups(xs, f)| ==>
              Groups(xs, f)[i] == Group(FirstSeen(KeysOf(xs, f))[i], Members(xs, f, FirstSeen(KeysOf(xs, f))[i]))
  {
  }

  /** Every row lands in the group of its own key and in no other; no key has
      two groups, and no group is empty. */
  lemma GroupsPartition<T(!new), K(!new)>(xs: seq<T>, f: T -> K)
    ensures forall i, j :: 0 <= i < j < |Groups(xs, f)| ==> Groups(xs, f)[i].key != Groups(xs, f)[j].key
    ensures forall x :: x in xs ==>
              exists i :: 0 <= i < |Groups(xs, f)| && Groups(xs, f)[i].key == f(x) && x in Groups(xs, f)[i].members
    ensures forall i, x :: 0 <= i < |Groups(xs, f)| && x in Groups(xs, f)[i].members ==>
              x in xs && f(x) == Groups(xs, f)[i].key
    ensures forall i :: 0 <= i < |Groups(xs, f)| ==>
              Groups(xs, f)[i].members != [] && f(Groups(xs, f)[i].members[0]) == Groups(xs, f)[i].key
  {
    GroupsShape(xs, f);
    GroupsCover(xs, f);
    GroupsNonEmpty(xs, f);
  }

  lemma GroupsCover<T(!new), K(!new)>(xs: seq<T>, f: T -> K)
    ensures forall x :: x in xs ==>
              exists i :: 0 <= i < |Groups(xs, f)| && Groups(xs, f)[i].key == f(x) && x in Groups(xs, f)[i].members
  {
    var ks := FirstSeen(KeysOf(xs, f));
    var gs := Groups(xs, f);
    forall x | x in xs
      ensures exists i :: 0 <= i < |gs| && gs[i].key == f(x) && x in gs[i].members
    {
      var j := IndexOf(xs, x);
      assert KeysOf(xs, f)[j] == f(x);
      var i := IndexOf(ks, f(x));
      assert gs[i].key == f(x) && x in gs[i].members;
    }
  }

  lemma GroupsNonEmpty<T(!new), K(!new)>(xs: seq<T>, f: T -> K)
    ensures forall i :: 0 <= i < |Groups(xs, f)| ==> Groups(xs, f)[i].members != []
  {
    var ks := FirstSeen(KeysOf(xs, f));
    var gs := Groups(xs, f);
    forall i | 0 <= i < |gs|
      ensures gs[i].members != []
    {
      var j := IndexOf(KeysOf(xs, f), ks[i]);
      assert xs[j] in gs[i].members;
    }
  }

  /** Groups appear in the order in which their keys are first seen. */
  lemma GroupsFirstSeenOrder<T(!new), K(!new)>(xs: seq<T>, f: T -> K)
    ensures forall i :: 0 <= i < |Groups(xs, f)| ==> Groups(xs, f)[i].key in KeysOf(xs, f)
    ensures forall i, j :: 0 <= i < j < |Groups(xs, f)| ==>
              IndexOf(KeysOf(xs, f), Groups(xs, f)[i].key) < IndexOf(KeysOf(xs, f), Groups(xs, f)[j].key)
  {
  }

  /** A row with the key of a later group is preceded by a row with the key
      of every earlier group. */
  lemma GroupKeySeenEarlier<T(!new), K(!new)>(xs: seq<T>, f: T -> K, i: nat, j: nat, q: nat)
    requires i < j < |Groups(xs, f)| && q < |xs| && f(xs[q]) == Groups(xs, f)[j].key
    ensures exists p :: 0 <= p < q && f(xs[p]) == Groups(xs, f)[i].key
  {
    var ks := KeysOf(xs, f);
    var gs := Groups(xs, f);
    GroupsFirstSeenOrder(xs, f);
    assert ks[q] == gs[j].key;
    var p := IndexOf(ks, gs[i].key);
    assert p < IndexOf(ks, gs[j].key) <= q;
    assert f(xs[p]) == gs[i].key;
  }

  /** Appending a row whose key already has a group extends that group. */
  lemma GroupsSnocFound<T(!new), K(!new)>(xs: seq<T>, f: T -> K, x: T, j: nat)
    requires j < |Groups(xs, f)| && Groups(xs, f)[j].key == f(x)
    ensures Groups(xs + [x], f) == Groups(xs, f)[j := Group(f(x), Groups(xs, f)[j].members + [x])]
  {
    var ys := xs + [x];
    assert ys[..|xs|] == xs;
    assert KeysOf(ys, f)[..|xs|] == KeysOf(xs, f);
    var ks := FirstSeen(KeysOf(xs, f));
    assert FirstSeen(KeysOf(ys, f)) == ks;
    var gs := Groups(xs, f);
    var gs' := Groups(ys, f);
    forall i | 0 <= i < |gs|
      ensures gs'[i] == gs[j := Group(f(x), gs[j].members + [x])][i]
    {
      assert Members(ys, f, ks[i]) == Members(xs, f, ks[i]) + (if f(x) == ks[i] then [x] else []);
    }
  }

  /** Appending a row with a new key opens a group at the end. */
  lemma GroupsSnocNew<T(!new), K(!new)>(xs: seq<T>, f: T -> K, x: T)
    requires forall j :: 0 <= j < |Groups(xs, f)| ==> Groups(xs, f)[j].key != f(x)
    ensures Groups(xs + [x], f) == Groups(xs, f) + [Group(f(x), [x])]
  {
    var ys := xs + [x];
    assert ys[..|xs|] == xs;
    assert KeysOf(ys, f)[..|xs|] == KeysOf(xs, f);
    var ks := FirstSeen(KeysOf(xs, f));
    forall i | 0 <= i < |ks| ensures ks[i] != f(x) {
      assert Groups(xs, f)[i].key == ks[i];
    }
    assert FirstSeen(KeysOf(ys, f)) == ks + [f(x)];
    var gs := Groups(xs, f);
    var gs' := Groups(ys, f);
    forall i | 0 <= i < |gs'|
      ensures gs'[i] == (gs + [Group(f(x), [x])])[i]
    {
      var k := (ks + [f(x)])[i];
      assert Members(ys, f, k) == Members(xs, f, k) + (if f(x) == k then [x] else []);
      if i == |ks| {
        forall y | y in xs ensures f(y) != k {
          assert KeysOf(xs, f)[IndexOf(xs, y)] == f(y);
        }
        assert Members(xs, f, k) == [];
      }
    }
  }

  /** One iteration of the handler's loop, where `j` is the position of the
      first group with the row's key, or the number of groups. */
  lemma GroupByStep<T(!new), K(!new)>(xs: seq<T>, f: T -> K, i: nat, groups: seq<Group<K, T>>, j: nat)
    requires i < |xs| && groups == Groups(xs[..i], f) && j <= |groups|
    requires j < |groups| ==> groups[j].key == f(xs[i])
    requires forall m :: 0 <= m < j ==> groups[m].key != f(xs[i])
    ensures Groups(xs[..i + 1], f) ==
              if j < |groups| then groups[j := Group(f(xs[i]), groups[j].members + [xs[i]])]
              else groups + [Group(f(xs[i]), [xs[i]])]
  {
    assert xs[..i + 1] == xs[..i] + [xs[i]];
    if j < |groups| {
      GroupsSnocFound(xs[..i], f, xs[i], j);
    } else {
      GroupsSnocNew(xs[..i], f, xs[i]);
    }
  }

  /** `areas.setdefault(key, ...)`'s lookup: the position of the group with
      key `k`, or the number of groups when there is none. */
  method FindGroup<T, K(==)>(groups: seq<Group<K, T>>, k: K) returns (j: nat)
    ensures j <= |groups|
    ensures j < |groups| ==> groups[j].key == k
    ensures forall m :: 0 <= m < j ==> groups[m].key != k
  {
    j := 0;
    while j < |groups| && groups[j].key != k
      invariant 0 <= j <= |groups|
      invariant forall m :: 0 <= m < j ==> groups[m].key != k
    {
      j := j + 1;
    }
  }

  /** The handler's loop: look up the group of each row's key, append the row
      to it, or open a new group at the end. */
  method GroupBy<T(!new), K(==,!new)>(xs: seq<T>, f: T -> K) returns (groups: seq<Group<K, T>>)
    ensures groups == Groups(xs, f)
  {
    groups := [];
    var i := 0;
    while i < |xs|
      invariant 0 <= i <= |xs|
      invariant groups == Groups(xs[..i], f)
    {
      var k := f(xs[i]);
      var j := FindGroup(groups, k);
      GroupByStep(xs, f, i, groups, j);
      if j < |groups| {
        groups := groups[j := Group(k, groups[j].members + [xs[i]])];
      } else {
        groups := groups + [Group(k, [xs[i]])];
      }
      i := i + 1;
    }
    assert xs[..|xs|] == xs;
  }

  /** `byG` is `byF` with every key renamed by `h`. */
  ghost predicate Renamed<T, K, L>(byF: seq<Group<K, T>>, byG: seq<Group<L, T>>, h: K -> L) {
    |byG| == |byF| && forall i :: 0 <= i < |byF| ==> byG[i] == Group(h(byF[i].key), byF[i].members)
  }

  lemma RenamedSnocFound<T(!new), K(!new), L(!new)>(xs: seq<T>, f: T -> K, g: T -> L, h: K -> L, x: T, j: nat)
    requires Renamed(Groups(xs, f), Groups(xs, g), h)
    requires g(x) == h(f(x))
    requires j < |Groups(xs, f)| && Groups(xs, f)[j].key == f(x)
    ensures Renamed(Groups(xs + [x], f), Groups(xs + [x], g), h)
  {
    GroupsSnocFound(xs, f, x, j);
    GroupsSnocFound(xs, g, x, j);
  }

  lemma RenamedSnocNew<T(!new), K(!new), L(!new)>(xs: seq<T>, f: T -> K, g: T -> L, h: K -> L, x: T)
    requires Renamed(Groups(xs, f), Groups(xs, g), h)
    requires g(x) == h(f(x))
    requires forall y :: y in xs && h(f(y)) == h(f(x)) ==> f(y) == f(x)
    requires forall j :: 0 <= j < |Groups(xs, f)| ==> Groups(xs, f)[j].key != f(x)
    ensures Renamed(Groups(xs + [x], f), Groups(xs + [x], g), h)
  {
    var fs, gs := Groups(xs, f), Groups(xs, g);
    GroupsPartition(xs, f);
    forall j | 0 <= j < |gs| ensures gs[j].key != g(x) {
      var y := fs[j].members[0];
      assert y in xs;
    }
    GroupsSnocNew(xs, f, x);
    GroupsSnocNew(xs, g, x);
  }

  /** Grouping by `g = h . f` with `h` one-to-one on the keys that occur gives
      the same groups as grouping by `f`, with the keys renamed by `h`. */
  lemma {:induction false} GroupsRekey<T(!new), K(!new), L(!new)>(xs: seq<T>, f: T -> K, g: T -> L, h: K -> L)
    requires forall x :: x in xs ==> g(x) == h(f(x))
    requires forall x, y :: x in xs && y in xs && h(f(x)) == h(f(y)) ==> f(x) == f(y)
    ensures |Groups(xs, g)| == |Groups(xs, f)|
    ensures forall i :: 0 <= i < |Groups(xs, f)| ==>
              Groups(xs, g)[i] == Group(h(Groups(xs, f)[i].key), Groups(xs, f)[i].members)
  {
    if |xs| > 0 {
      var n := |xs| - 1;
      var init, x := xs[..n], xs[n];
      assert xs == init + [x];
      assert forall y :: y in init ==> y in xs;
      GroupsRekey(init, f, g, h);
      var fs := Groups(init, f);
      if j :| 0 <= j < |fs| && fs[j].key == f(x) {
        RenamedSnocFound(init, f, g, h, x, j);
      } else {
        RenamedSnocNew(init, f, g, h, x);
      }
    }
  }
}

=== FILE: python.dfy ===
/**
 * The small part of Python's semantics the handlers rely on: decoded JSON
 * values, truthiness, `== 0`, `str()`, slicing with clamped and negative
 * indices, and the exceptions a handler's `try`/`except` turns into HTTP 400.
 */
module Python {

  datatype Option<+T> = None | Some(value: T)

  /** The exceptions a handler body can raise. `StoreError` stands for any
      failure reported by the database layer (a rejected value, a failed
      query). */
  datatype Exception = TypeError | KeyError | AttributeError | IndexError | StoreError

  /** The outcome of evaluating Python code: a value, or a raised exception. */
  datatype Outcome<+T> = Returned(value: T) | Raised(exc: Exception)

  /** A keyword argument at a call site: left out, or given a value. */
  datatype Arg<+T> = Omitted | Given(value: T)

  /** A value decoded by `request.get_json()`. Floats and nested objects are
      not represented. */
  datatype Json = JNull | JBool(b: bool) | JInt(i: int) | JStr(s: string) | JList(items: seq<Json>)

  /** A decoded JSON object, as the handlers index it with `body[key]`. */
  type Body = map<string, Json>

  /** Python's `bool(v)`. */
  predicate Truthy(v: Json) {
    match v
    case JNull => false
    case JBool(b) => b
    case JInt(i) => i != 0
    case JStr(s) => s != ""
    case JList(items) => items != []
  }

  /** Python's `v == 0`; note that `False == 0` holds in Python. */
  predicate EqualsZero(v: Json) {
    v == JInt(0) || v == JBool(false)
  }

  /** The falsy values that are nevertheless `== 0` are exactly `0` and `False`. */
  lemma FalsyZero(v: Json)
    ensures EqualsZero(v) ==> !Truthy(v)
    ensures !Truthy(v) && !EqualsZero(v) <==> v in {JNull, JStr(""), JList([])}
  {
  }

  function DigitChar(d: nat): char
    requires d < 10
  {
    "0123456789"[d]
  }

  /** Decimal digits of `n`, most significant first. */
  function Digits(n: nat): (r: string)
    ensures |r| >= 1
    decreases n
  {
    if n < 10 then [DigitChar(n)] else Digits(n / 10) + [DigitChar(n % 10)]
  }

  /** Python's `str(v)`, which an f-string applies to an interpolated value. */
  function Render(v: Json): string
    decreases v, 1
  {
    match v
    case JNull => "None"
    case JBool(b) => if b then "True" else "False"
    case JInt(i) => if i < 0 then "-" + Digits(-i) else Digits(i)
    case JStr(s) => s
    case JList(_) => "[" + ReprItems(v, 0) + "]"
  }

  /** Python's `repr(v)`, used for the elements of a list; strings are quoted
      without escaping their contents. */
  function Repr(v: Json): string
    decreases v, 2
  {
    if v.JStr? then "'" + v.s + "'" else Render(v)
  }

  /** The reprs of `list.items[k..]`, separated by ", ". */
  function ReprItems(list: Json, k: nat): string
    requires list.JList? && k <= |list.items|
    decreases list, 0, |list.items| - k
  {
    if k == |list.items| then ""
    else if k + 1 == |list.items| then Repr(list.items[k])
    else Repr(list.items[k]) + ", " + ReprItems(list, k + 1)
  }

  /** Python's normalisation of one slice bound against a sequence of length `n`. */
  function SliceBound(i: int, n: nat): (r: nat)
    ensures r <= n
    ensures 0 <= i ==> r == if i <= n then i else n
    ensures i < 0 ==> r == if -i <= n then n + i else 0
  {
    if i < 0 then (if i + n < 0 then 0 else i + n)
    else if i > n then n else i
  }

  /** Python's `xs[start:stop]` (step 1). */
  function Slice<T>(xs: seq<T>, start: int, stop: int): (r: seq<T>)
    ensures |r| <= |xs|
    ensures var a, b := SliceBound(start, |xs|), SliceBound(stop, |xs|);
            && |r| == (if a < b then b - a else 0)
            && forall i :: 0 <= i < |r| ==> r[i] == xs[a + i]
  {
    var a := SliceBound(start, |xs|);
    var b := SliceBound(stop, |xs|);
    if a < b then xs[a..b] else []
  }

  /** With non-negative bounds a Python slice is the Dafny slice clamped to the
      sequence: it never fails, and it is empty once `start` reaches the end. */
  lemma SliceNonNegative<T>(xs: seq<T>, start: int, stop: int)
    requires 0 <= start <= stop
    ensures start < |xs| ==> Slice(xs, start, stop) == xs[start..if stop <= |xs| then stop else |xs|]
    ensures |xs| <= start ==> Slice(xs, start, stop) == []
  {
  }
}

=== FILE: seqs.dfy ===
/**
 * A filtered read of an in-memory table: the rows of a sequence that satisfy
 * a predicate, kept in table order. Every `query.filter(...).all()` of the
 * handlers is modelled by it, and every lookup by primary key
 * (`query.get(id)`) by `FindIndex`.
 */
module Seqs {
  import opened Python

  function Filter<T(!new)>(xs: seq<T>, p: T -> bool): (r: seq<T>)
    ensures |r| <= |xs|
    ensures forall x :: x in r <==> x in xs && p(x)
  {
    if |xs| == 0 then []
    else (if p(xs[0]) then [xs[0]] else []) + Filter(xs[1..], p)
  }

  /** Filtering distributes over concatenation, so it keeps table order. */
  lemma {:induction false} FilterAppend<T(!new)>(a: seq<T>, b: seq<T>, p: T -> bool)
    ensures Filter(a + b, p) == Filter(a, p) + Filter(b, p)
  {
    if |a| > 0 {
      var head := if p(a[0]) then [a[0]] else [];
      FilterAppend(a[1..], b, p);
      assert (a + b)[0] == a[0];
      assert (a + b)[1..] == a[1..] + b;
      assert Filter(a + b, p) == head + Filter(a[1..] + b, p);
      assert Filter(a, p) == head + Filter(a[1..], p);
    } else {
      assert a + b == b;
    }
  }

  /** Filtering with a predicate that holds of every row keeps the table. */
  lemma {:induction false} FilterAll<T(!new)>(xs: seq<T>, p: T -> bool)
    requires forall x :: x in xs ==> p(x)
    ensures Filter(xs, p) == xs
  {
    if |xs| > 0 {
      assert forall x :: x in xs[1..] ==> x in xs;
      FilterAll(xs[1..], p);
    }
  }

  /** When `yes` and `no` split the rows satisfying `p` into two disjoint
      parts, the two filtered reads together have as many rows as the read
      by `p`. */
  lemma {:induction false} FilterPartition<T(!new)>(xs: seq<T>, p: T -> bool, yes: T -> bool, no: T -> bool)
    requires forall x :: x in xs ==> (p(x) <==> yes(x) || no(x))
    requires forall x :: x in xs ==> !(yes(x) && no(x))
    ensures |Filter(xs, yes)| + |Filter(xs, no)| == |Filter(xs, p)|
  {
    if |xs| > 0 {
      assert forall x :: x in xs[1..] ==> x in xs;
      FilterPartition(xs[1..], p, yes, no);
    }
  }

  /** When `yes` and `no` together cover the rows satisfying `p` and overlap
      exactly on `both`, the two filtered reads together have as many rows as
      the read by `p` plus the overlap. */
  lemma {:induction false} FilterOverlap<T(!new)>(xs: seq<T>, p: T -> bool, yes: T -> bool, no: T -> bool, both: T -> bool)
    requires forall x :: x in xs ==> (p(x) <==> yes(x) || no(x))
    requires forall x :: x in xs ==> (both(x) <==> yes(x) && no(x))
    ensures |Filter(xs, yes)| + |Filter(xs, no)| == |Filter(xs, p)| + |Filter(xs, both)|
  {
    if |xs| > 0 {
      assert forall x :: x in xs[1..] ==> x in xs;
      FilterOverlap(xs[1..], p, yes, no, both);
    }
  }

  /** A predicate that holds at exactly one position selects exactly that row. */
  lemma {:induction false} FilterSingle<T(!new)>(xs: seq<T>, p: T -> bool, k: nat)
    requires k < |xs|
    requires forall i :: 0 <= i < |xs| ==> (p(xs[i]) <==> i == k)
    ensures Filter(xs, p) == [xs[k]]
  {
    if k == 0 {
      FilterNone(xs[1..], p);
    } else {
      FilterSingle(xs[1..], p, k - 1);
    }
  }

  /** A predicate that holds of no row selects nothing. */
  lemma {:induction false} FilterNone<T(!new)>(xs: seq<T>, p: T -> bool)
    requires forall i :: 0 <= i < |xs| ==> !p(xs[i])
    ensures Filter(xs, p) == []
  {
    if |xs| > 0 {
      FilterNone(xs[1..], p);
    }
  }

  /** The position of the first row satisfying `p`, or `None` when no row
      does. With `p` an id test on a table whose ids are unique this is
      `query.get(id)`. */
  function FindIndex<T>(xs: seq<T>, p: T -> bool): (r: Option<nat>)
    ensures r.None? <==> forall i :: 0 <= i < |xs| ==> !p(xs[i])
    ensures r.Some? ==> r.value < |xs| && p(xs[r.value])
    ensures r.Some? ==> forall i :: 0 <= i < r.value ==> !p(xs[i])
  {
    if |xs| == 0 then None
    else if p(xs[0]) then Some(0)
    else match FindIndex(xs[1..], p)
      case None => None
      case Some(i) => Some(i + 1)
  }

  /** The position of the first occurrence of `x`. */
  function IndexOf<T(==)>(xs: seq<T>, x: T): (i: nat)
    requires x in xs
    ensures i < |xs| && xs[i] == x && x !in xs[..i]
  {
    var r := FindIndex(xs, (y: T) => y == x);
    assert r.Some? by {
      var k :| 0 <= k < |xs| && xs[k] == x;
    }
    assert x !in xs[..r.value] by {
      forall k | 0 <= k < r.value ensures xs[..r.value][k] != x {
      }
    }
    r.value
  }
}

=== FILE: text.dfy ===
/**
 * String operations the handlers perform: the case-insensitive containment
 * that `ilike('%term%')` asks the database for, and Python's `str.split`
 * on one separator character together with its inverse, `join`.
 */
module Text {
  import opened Seqs

  /** Case folding of one character; only the ASCII letters are folded. */
  function Lower(c: char): char {
    if 'A' <= c <= 'Z' then (c as int + 32) as char else c
  }

  function LowerAll(s: string): (r: string)
    ensures |r| == |s|
    ensures forall i :: 0 <= i < |s| ==> r[i] == Lower(s[i])
  {
    if |s| == 0 then [] else [Lower(s[0])] + LowerAll(s[1..])
  }

  /** `term` occurs in `text` starting at some position. */
  ghost predicate IsSubstring(term: string, text: string) {
    exists i :: 0 <= i <= |text| && term <= text[i..]
  }

  /** Executable substring test: try every start position from the left. */
  function Occurs(term: string, text: string): bool
    decreases |text|
  {
    if term <= text then true
    else if |text| == 0 then false
    else Occurs(term, text[1..])
  }

  /** The scan finds `term` exactly when it occurs somewhere in `text`. */
  lemma {:induction false} OccursIsSubstring(term: string, text: string)
    ensures Occurs(term, text) <==> IsSubstring(term, text)
    decreases |text|
  {
    assert text[0..] == text;
    if !(term <= text) && |text| > 0 {
      OccursIsSubstring(term, text[1..]);
      if IsSubstring(term, text) {
        var i :| 0 <= i <= |text| && term <= text[i..];
        if i > 0 {
          assert text[1..][i - 1..] == text[i..];
        }
      }
      if IsSubstring(term, text[1..]) {
        var i :| 0 <= i <= |text[1..]| && term <= text[1..][i..];
        assert text[1..][i..] == text[i + 1..];
      }
    }
  }

  /** `text ILIKE '%term%'`: containment after folding both sides. */
  predicate ContainsIgnoringCase(text: string, term: string) {
    Occurs(LowerAll(term), LowerAll(text))
  }

  /** Python's `s.split(sep)` for a one-character separator. */
  function Split(s: string, sep: char): (parts: seq<string>)
    ensures |parts| >= 1
    ensures sep in s ==> |parts| >= 2
    ensures forall k :: 0 <= k < |parts| ==> sep !in parts[k]
    decreases |s|
  {
    if sep in s then
      var i := IndexOf(s, sep);
      [s[..i]] + Split(s[i + 1..], sep)
    else
      [s]
  }

  /** Python's `sep.join(parts)`. */
  function Join(parts: seq<string>, sep: char): string {
    if |parts| == 0 then ""
    else if |parts| == 1 then parts[0]
    else parts[0] + [sep] + Join(parts[1..], sep)
  }

  /** Splitting where the first separator is known. */
  lemma SplitAt(a: string, sep: char, b: string)
    requires sep !in a
    ensures Split(a + [sep] + b, sep) == [a] + Split(b, sep)
  {
    var s := a + [sep] + b;
    assert s[|a|] == sep;
    var i := IndexOf(s, sep);
    assert s[..|a|] == a;
    assert s[..i] == a;
    assert s[i + 1..] == b;
  }

  /** Joining the pieces of a split gives back the original string. */
  lemma {:induction false} JoinSplit(s: string, sep: char)
    ensures Join(Split(s, sep), sep) == s
    decreases |s|
  {
    if sep in s {
      var i := IndexOf(s, sep);
      JoinSplit(s[i + 1..], sep);
      assert s == s[..i] + [sep] + s[i + 1..];
    }
  }

  /** Splitting a join gives back the pieces, provided no piece contains the
      separator. */
  lemma {:induction false} SplitJoin(parts: seq<string>, sep: char)
    requires |parts| >= 1
    requires forall k :: 0 <= k < |parts| ==> sep !in parts[k]
    ensures Split(Join(parts, sep), sep) == parts
  {
    if |parts| > 1 {
      var rest := parts[1..];
      assert forall k :: 0 <= k < |rest| ==> rest[k] == parts[k + 1];
      SplitJoin(rest, sep);
      assert Join(parts, sep) == parts[0] + [sep] + Join(rest, sep);
      SplitAt(parts[0], sep, Join(rest, sep));
      assert parts == [parts[0]] + rest;
    } else {
      assert Join(parts, sep) == parts[0] && sep !in parts[0];
    }
  }
}

=== FILE: trivia.dfy ===
/**
 * The trivia API's handlers (backend/flaskr/__init__.py) over an in-memory
 * store. Each query becomes a filter over the store's sequences, taken in
 * store order; each handler body yields either an envelope or an exception.
 * Every handler except `GET /categories` wraps its body in `try`/`except` and
 * turns every exception into `abort(400)`; `GET /categories` has no such
 * wrapper.
 */
module Trivia {
  import opened Python
  import opened Text
  import opened Seqs
  import opened Envelopes

  const QuestionsPerPage := 10

  const IdRequiredMessage := "Question #ID is required."
  const RequiredFieldsMessage := "Question, answer, category & difficulty score are required fields."
  const EmptySearchMessage := "Empty search query."
  const NoQuestionsInCategoryMessage := "No questions are founds inside this category."
  const InvalidCategoryMessage := "Invalid category #ID is provided."
  const QuizParametersMessage := "Category #ID and previous questions must be provided."

  datatype Question = Question(id: int, question: string, answer: string, category: int, difficulty: int)

  /** A category; `kind` is the column the source calls `type`. */
  datatype Category = Category(id: int, kind: string)

  /** The database: both tables in store order, and the identifier the next
      inserted question receives. */
  datatype Store = Store(questions: seq<Question>, categories: seq<Category>, nextId: int)

  /** What the database guarantees: question ids are unique, positive and
      below the next id to be assigned. */
  predicate Valid(st: Store) {
    && 0 < st.nextId
    && (forall i, j :: 0 <= i < j < |st.questions| ==> st.questions[i].id != st.questions[j].id)
    && (forall i :: 0 <= i < |st.questions| ==> 0 < st.questions[i].id < st.nextId)
  }

  /** An HTTP response: status code and JSON envelope. */
  datatype Reply<+D> = Reply(status: int, body: Envelope<D>)

  /** A response together with the store it leaves behind. */
  datatype Handled<+D> = Handled(store: Store, reply: Reply<D>)

  /** `abort(400)`, which the registered 400 handler renders as the default
      error envelope with status 400. */
  function BadRequest<D>(): Reply<D> {
    Reply(400, ErrorResponse(Omitted, Omitted))
  }

  /** A handler's `try: ... except: return abort(400)`: a returned envelope is
      sent with status 200, whatever its `code` field says. */
  function Handle<D>(o: Outcome<Envelope<D>>): (r: Reply<D>)
    ensures o.Raised? ==> r == BadRequest()
    ensures o.Returned? ==> r == Reply(200, o.value)
  {
    match o
    case Returned(e) => Reply(200, e)
    case Raised(_) => BadRequest()
  }

  //----------------------------------------------------------------------
  // Categories
  //----------------------------------------------------------------------

  /** `get_formatted_categories()`: all categories, or `False` (here `None`)
      when there are none. */
  function FormattedCategories(st: Store): (r: Option<seq<Category>>)
    ensures r.None? <==> st.categories == []
    ensures r.Some? ==> r.value == st.categories
  {
    if |st.categories| == 0 then None else Some(st.categories)
  }

  /** `GET /categories`. */
  function ListCategories(st: Store): (r: Reply<seq<Category>>)
    ensures r.status == 200 && WellFormed(r.body)
    ensures r.body.success <==> |st.categories| > 0
    ensures r.body.success ==> r.body.data == Some(st.categories) && r.body.code == 200
    ensures !r.body.success ==> r.body.message == Some(DefaultErrorMessage) && r.body.code == 400
  {
    match FormattedCategories(st)
    case Some(cs) => Reply(200, SuccessResponse(cs, Omitted))
    case None => Reply(200, ErrorResponse(Omitted, Omitted))
  }

  //----------------------------------------------------------------------
  // Pagination
  //----------------------------------------------------------------------

  datatype QuestionsPage = QuestionsPage(
    questions: seq<Question>,
    totalQuestions: nat,
    categories: Option<seq<Category>>,
    currentCategory: int)

  /** The body of `questions()`: a Python slice of the store, then
      `requested_questions[0]`, which raises IndexError on an empty slice. */
  function QuestionsPageBody(st: Store, page: int): Outcome<Envelope<QuestionsPage>> {
    var offset := (page - 1) * QuestionsPerPage;
    var take := offset + QuestionsPerPage;
    var requested := Slice(st.questions, offset, take);
    if |requested| == 0 then Raised(IndexError)
    else Returned(SuccessResponse(
      QuestionsPage(requested, |st.questions|, FormattedCategories(st), requested[0].category), Omitted))
  }

  function Min(a: int, b: int): int {
    if a <= b then a else b
  }

  /** `GET /questions?page=N`; `page` is `None` when the query string has no
      integer `page`, which the handler reads as page 1. */
  function ListQuestions(st: Store, page: Option<int>): (r: Reply<QuestionsPage>)
    ensures r.status == 200 || r == BadRequest()
    ensures WellFormed(r.body)
    ensures r.status == 200 ==>
              && r.body.success && r.body.code == 200 && r.body.data.Some?
              && var data := r.body.data.value;
              && data.totalQuestions == |st.questions|
              && 0 < |data.questions| <= QuestionsPerPage
              && data.currentCategory == data.questions[0].category
              && data.categories == FormattedCategories(st)
    ensures var p := if page.Some? then page.value else 1;
            p >= 1 ==>
              && (r.status == 200 <==> (p - 1) * QuestionsPerPage < |st.questions|)
              && (r.status == 200 ==>
                    r.body.data.value.questions
                    == st.questions[(p - 1) * QuestionsPerPage .. Min(p * QuestionsPerPage, |st.questions|)])
  {
    var p := if page.Some? then page.value else 1;
    if p >= 1 then
      SliceNonNegative(st.questions, (p - 1) * QuestionsPerPage, (p - 1) * QuestionsPerPage + QuestionsPerPage);
      Handle(QuestionsPageBody(st, p))
    else
      Handle(QuestionsPageBody(st, p))
  }

  /** Every question is on exactly the page its position says: the one at
      position `k` is item `k % 10` of page `k / 10 + 1`. */
  lemma PageOfPosition(st: Store, k: nat)
    requires k < |st.questions|
    ensures ListQuestions(st, Some(k / QuestionsPerPage + 1)).status == 200
    ensures ListQuestions(st, Some(k / QuestionsPerPage + 1)).body.data.value.questions[k % QuestionsPerPage]
            == st.questions[k]
  {
    var p := k / QuestionsPerPage + 1;
    assert (p - 1) * QuestionsPerPage + k % QuestionsPerPage == k;
  }

  /** Page 0 and the negative pages follow Python's slicing: page 0 is always
      an empty slice (HTTP 400), while page -1 counts from the end and returns
      the records 20 to 11 from the last when there are more than 10. */
  lemma NonPositivePages(st: Store)
    ensures ListQuestions(st, Some(0)) == BadRequest()
    ensures |st.questions| > QuestionsPerPage ==>
              var n := |st.questions|;
              && ListQuestions(st, Some(-1)).status == 200
              && ListQuestions(st, Some(-1)).body.data.value.questions
                 == st.questions[if n >= 20 then n - 20 else 0 .. n - 10]
  {
  }

  /** Both endpoints read the categories through `get_formatted_categories`:
      the `categories` of a page of questions are present exactly when
      `GET /categories` succeeds, and are then its data. */
  lemma QuestionsPageCategories(st: Store, page: Option<int>)
    requires ListQuestions(st, page).status == 200
    ensures var cats := ListQuestions(st, page).body.data.value.categories;
            && (cats.Some? <==> ListCategories(st).body.success)
            && (cats.Some? ==> cats == ListCategories(st).body.data)
  {
  }

  //----------------------------------------------------------------------
  // Deletion
  //----------------------------------------------------------------------

  /** `Question.query.get(id)`: the position of the question with that id. */
  function FindQuestion(qs: seq<Question>, id: int): Option<nat> {
    FindIndex(qs, (q: Question) => q.id == id)
  }

  /** `DELETE /questions/<int:id>`; the route only admits non-negative ids. */
  function DeleteQuestion(st: Store, id: nat): (r: Handled<Question>)
    ensures id == 0 ==> r == Handled(st, Reply(200, ErrorResponse(Given(IdRequiredMessage), Omitted)))
    ensures id != 0 && (forall i :: 0 <= i < |st.questions| ==> st.questions[i].id != id) ==>
              r == Handled(st, BadRequest())
    ensures id != 0 && (exists i :: 0 <= i < |st.questions| && st.questions[i].id == id) ==>
              exists k :: 0 <= k < |st.questions| && st.questions[k].id == id &&
                r == Handled(st.(questions := st.questions[..k] + st.questions[k + 1..]),
                             Reply(200, SuccessResponse(st.questions[k], Omitted)))
  {
    if id == 0 then
      Handled(st, Reply(200, ErrorResponse(Given(IdRequiredMessage), Omitted)))
    else
      match FindQuestion(st.questions, id)
      case None =>
        // `None.delete()` raises AttributeError
        Handled(st, BadRequest())
      case Some(k) =>
        Handled(st.(questions := st.questions[..k] + st.questions[k + 1..]),
                Reply(200, SuccessResponse(st.questions[k], Omitted)))
  }

  /** Deleting an existing question removes that question and nothing else,
      and the store stays valid. */
  lemma DeleteRemovesOnlyTarget(st: Store, id: nat)
    requires Valid(st)
    ensures Valid(DeleteQuestion(st, id).store)
    ensures forall q :: q in DeleteQuestion(st, id).store.questions <==>
              q in st.questions && (!DeleteQuestion(st, id).reply.body.success || q.id != id)
    ensures |DeleteQuestion(st, id).store.questions| ==
              |st.questions| - (if DeleteQuestion(st, id).reply.body.success then 1 else 0)
  {
    if id != 0 && FindQuestion(st.questions, id).Some? {
      var k := FindQuestion(st.questions, id).value;
      RemoveAt(st, k);
    }
  }

  /** Removing the row at `k` keeps every row whose id differs. */
  lemma RemoveAt(st: Store, k: nat)
    requires Valid(st) && k < |st.questions|
    ensures Valid(st.(questions := st.questions[..k] + st.questions[k + 1..]))
    ensures forall q :: q in st.questions[..k] + st.questions[k + 1..] <==>
              q in st.questions && q.id != st.questions[k].id
  {
    RemoveAtValid(st, k);
    RemoveAtMembers(st, k);
  }

  lemma RemoveAtValid(st: Store, k: nat)
    requires Valid(st) && k < |st.questions|
    ensures Valid(st.(questions := st.questions[..k] + st.questions[k + 1..]))
  {
    var qs := st.questions;
    var rest := qs[..k] + qs[k + 1..];
    RemoveAtShift(qs, k, rest);
    forall i, j | 0 <= i < j < |rest| ensures rest[i].id != rest[j].id {
      var a, b := if i < k then i else i + 1, if j < k then j else j + 1;
      assert rest[i] == qs[a] && rest[j] == qs[b] && a < b;
    }
    forall i | 0 <= i < |rest| ensures 0 < rest[i].id < st.nextId {
      assert rest[i] == qs[if i < k then i else i + 1];
    }
  }

  lemma RemoveAtMembers(st: Store, k: nat)
    requires Valid(st) && k < |st.questions|
    ensures forall q :: q in st.questions[..k] + st.questions[k + 1..] <==>
              q in st.questions && q.id != st.questions[k].id
  {
    var qs := st.questions;
    var rest := qs[..k] + qs[k + 1..];
    RemoveAtShift(qs, k, rest);
    forall q | q in qs && q.id != qs[k].id ensures q in rest {
      var i :| 0 <= i < |qs| && qs[i] == q;
      if i < k { assert rest[i] == q; } else { assert rest[i - 1] == q; }
    }
    forall q | q in rest ensures q in qs && q.id != qs[k].id {
      var i :| 0 <= i < |rest| && rest[i] == q;
      if i < k { assert q == qs[i]; } else { assert q == qs[i + 1]; }
    }
  }

  /** Where each remaining row stood before the removal. */
  lemma RemoveAtShift(qs: seq<Question>, k: nat, rest: seq<Question>)
    requires k < |qs| && rest == qs[..k] + qs[k + 1..]
    ensures |rest| == |qs| - 1
    ensures forall i :: 0 <= i < k ==> rest[i] == qs[i]
    ensures forall i :: k <= i < |rest| ==> rest[i] == qs[i + 1]
  {
  }

  //----------------------------------------------------------------------
  // Insertion
  //----------------------------------------------------------------------

  const QuestionFields: seq<string> := ["question", "answer", "category", "difficulty"]

  /** The range of a PostgreSQL `integer` column, which holds `category` and
      `difficulty`: inserting a value outside it fails. */
  const IntegerColumnMin := -0x8000_0000
  const IntegerColumnMax := 0x7fff_ffff

  predicate FitsIntegerColumn(v: Json) {
    v.JInt? && IntegerColumnMin <= v.i <= IntegerColumnMax
  }

  /** The keyword parameters of the `Question` constructor. */
  const QuestionKeys: set<string> := set k | k in QuestionFields

  /** Evaluation of the `and` chain reaches `keys[i]`, and that key is
      missing: every earlier key is present and truthy. */
  predicate ReachesMissing(body: Body, keys: seq<string>, i: int) {
    0 <= i < |keys| && keys[i] !in body &&
    forall j :: 0 <= j < i ==> keys[j] in body && Truthy(body[keys[j]])
  }

  /** Past a present and truthy first key, the chain reaches the same
      missing keys as the chain of the remaining keys, one position later. */
  lemma ReachesMissingShift(body: Body, keys: seq<string>)
    requires |keys| > 0 && keys[0] in body && Truthy(body[keys[0]])
    ensures !ReachesMissing(body, keys, 0)
    ensures forall i :: ReachesMissing(body, keys, i + 1) <==> ReachesMissing(body, keys[1..], i)
  {
  }

  /** `body[k0] and body[k1] and ...`, evaluated left to right: the first falsy
      value ends the evaluation, and a missing key that is reached raises
      KeyError. */
  function AllTruthy(body: Body, keys: seq<string>): (r: Outcome<bool>)
    ensures r.Raised? ==> r.exc == KeyError
    ensures r == Returned(true) <==> forall k :: k in keys ==> k in body && Truthy(body[k])
    ensures r.Raised? <==> exists i :: ReachesMissing(body, keys, i)
  {
    if |keys| == 0 then Returned(true)
    else if keys[0] !in body then
      assert ReachesMissing(body, keys, 0);
      Raised(KeyError)
    else if !Truthy(body[keys[0]]) then Returned(false)
    else
      var r := AllTruthy(body, keys[1..]);
      assert forall k :: k in keys ==> k == keys[0] || k in keys[1..];
      ReachesMissingShift(body, keys);
      if r.Raised? then
        var i :| ReachesMissing(body, keys[1..], i);
        assert ReachesMissing(body, keys, i + 1);
        r
      else
        assert forall i :: !ReachesMissing(body, keys, i) by {
          forall i ensures !ReachesMissing(body, keys, i) {
            if i > 0 { assert !ReachesMissing(body, keys[1..], i - 1); }
          }
        }
        r
  }

  /** `Question(**form_data)`: every key of the body becomes a keyword
      argument, and the constructor takes exactly the four fields, so a body
      with any other key raises TypeError. Otherwise the result is the record
      the four fields describe, when the store's columns accept their values:
      strings for the text, and 32-bit integers for category and difficulty
      (the insert fails otherwise). */
  function NewQuestion(body: Body, id: int): (r: Outcome<Question>)
    requires forall k :: k in QuestionFields ==> k in body
    ensures (exists k :: k in body && k !in QuestionKeys) <==> r == Raised(TypeError)
    ensures r.Returned? <==>
              && body.Keys == QuestionKeys
              && body["question"].JStr? && body["answer"].JStr?
              && FitsIntegerColumn(body["category"]) && FitsIntegerColumn(body["difficulty"])
    ensures r.Returned? ==>
              && r.value.id == id
              && body["question"] == JStr(r.value.question) && body["answer"] == JStr(r.value.answer)
              && body["category"] == JInt(r.value.category) && body["difficulty"] == JInt(r.value.difficulty)
  {
    assert forall k :: k in QuestionKeys ==> k in QuestionFields;
    if exists k :: k in body && k !in QuestionKeys then Raised(TypeError)
    else match (body["question"], body["answer"], body["category"], body["difficulty"])
      case (JStr(q), JStr(a), JInt(c), JInt(d)) =>
        if FitsIntegerColumn(JInt(c)) && FitsIntegerColumn(JInt(d)) then Returned(Question(id, q, a, c, d))
        else Raised(StoreError)
      case _ => Raised(StoreError)
  }

  /** `POST /questions`; `body` is `None` when the request carries no JSON. */
  function AddQuestion(st: Store, body: Option<Body>): (r: Handled<Question>)
    ensures WellFormed(r.reply.body)
    ensures body.None? ==> r == Handled(st, BadRequest())
    ensures body.Some? && AllTruthy(body.value, QuestionFields).Raised? ==> r == Handled(st, BadRequest())
    ensures body.Some? && AllTruthy(body.value, QuestionFields) == Returned(false) ==>
              r == Handled(st, Reply(200, ErrorResponse(Given(RequiredFieldsMessage), Omitted)))
    ensures body.Some? && AllTruthy(body.value, QuestionFields) == Returned(true)
            && NewQuestion(body.value, st.nextId).Raised? ==>
              r == Handled(st, BadRequest())
    ensures r.reply.body.success <==>
              body.Some? && AllTruthy(body.value, QuestionFields) == Returned(true) &&
              NewQuestion(body.value, st.nextId).Returned?
    ensures r.reply.body.success ==>
              && r.reply.status == 200 && r.reply.body.code == 200 && r.reply.body.data.Some?
              && var q := r.reply.body.data.value;
              && q == NewQuestion(body.value, st.nextId).value
              && q.id == st.nextId
              && body.value.Keys == QuestionKeys
              && JStr(q.question) == body.value["question"] && JStr(q.answer) == body.value["answer"]
              && JInt(q.category) == body.value["category"] && JInt(q.difficulty) == body.value["difficulty"]
              && r.store == st.(questions := st.questions + [q], nextId := st.nextId + 1)
    ensures !r.reply.body.success ==> r.store == st
    ensures Valid(st) ==> Valid(r.store)
  {
    if body.None? then Handled(st, BadRequest())
    else match AllTruthy(body.value, QuestionFields)
      case Raised(_) => Handled(st, BadRequest())
      case Returned(false) =>
        Handled(st, Reply(200, ErrorResponse(Given(RequiredFieldsMessage), Omitted)))
      case Returned(true) =>
        match NewQuestion(body.value, st.nextId)
        case Raised(_) => Handled(st, BadRequest())
        case Returned(q) =>
          AppendKeepsValid(st, q);
          Handled(st.(questions := st.questions + [q], nextId := st.nextId + 1),
                  Reply(200, SuccessResponse(q, Omitted)))
  }

  /** Appending a question that carries the next id keeps the store valid. */
  lemma AppendKeepsValid(st: Store, q: Question)
    requires q.id == st.nextId
    ensures Valid(st) ==> Valid(st.(questions := st.questions + [q], nextId := st.nextId + 1))
  {
  }

  /** A difficulty of 0 is present but falsy: the "required fields" envelope
      with HTTP 200, and nothing is inserted. A body holding only `question`
      reaches the missing `answer` key: HTTP 400. */
  lemma AddQuestionFalsyAndMissing(st: Store)
    ensures var body := map["question" := JStr("q"), "answer" := JStr("a"),
                            "category" := JInt(2), "difficulty" := JInt(0)];
            AddQuestion(st, Some(body)) ==
              Handled(st, Reply(200, ErrorResponse(Given(RequiredFieldsMessage), Omitted)))
    ensures AddQuestion(st, Some(map["question" := JStr("question only, right?")])) ==
              Handled(st, BadRequest())
  {
    var body := map["question" := JStr("q"), "answer" := JStr("a"),
                    "category" := JInt(2), "difficulty" := JInt(0)];
    assert QuestionFields[3] == "difficulty" && !Truthy(body["difficulty"]);
    var only := map["question" := JStr("question only, right?")];
    assert QuestionFields[1] !in only && QuestionFields[0] in only;
  }

  /** `Question(**form_data)` rejects a key the constructor does not take:
      four valid, truthy fields plus a fifth key give HTTP 400 and insert
      nothing. */
  lemma AddQuestionExtraKey(st: Store)
    ensures var body := map["question" := JStr("q"), "answer" := JStr("a"),
                            "category" := JInt(2), "difficulty" := JInt(1), "extra" := JInt(1)];
            AddQuestion(st, Some(body)) == Handled(st, BadRequest())
  {
    var body := map["question" := JStr("q"), "answer" := JStr("a"),
                    "category" := JInt(2), "difficulty" := JInt(1), "extra" := JInt(1)];
    assert "extra" in body && "extra" !in QuestionKeys;
    assert forall k :: k in QuestionFields ==> k in body && Truthy(body[k]);
  }

  /** A difficulty one past the largest 32-bit integer does not fit its
      column: the insert fails, the reply is HTTP 400 and nothing is
      inserted. */
  lemma AddQuestionOutOfRange(st: Store)
    ensures var body := map["question" := JStr("q"), "answer" := JStr("a"),
                            "category" := JInt(1), "difficulty" := JInt(0x8000_0000)];
            AddQuestion(st, Some(body)) == Handled(st, BadRequest())
  {
    var body := map["question" := JStr("q"), "answer" := JStr("a"),
                    "category" := JInt(1), "difficulty" := JInt(0x8000_0000)];
    assert !FitsIntegerColumn(body["difficulty"]);
    assert forall k :: k in QuestionFields ==> k in body && Truthy(body[k]);
  }

  //----------------------------------------------------------------------
  // Search
  //----------------------------------------------------------------------

  datatype SearchResult = SearchResult(questions: seq<Question>, totalQuestions: nat)

  /** Does the question text match `ilike('%term%')`? */
  predicate MatchesTerm(q: Question, term: string) {
    ContainsIgnoringCase(q.question, term)
  }

  /** `POST /questions/search`. A truthy term that is not a string is
      interpolated with `str()` before matching. */
  function SearchQuestions(st: Store, body: Option<Body>): (r: Reply<SearchResult>)
    ensures WellFormed(r.body)
    ensures body.None? || "search_term" !in body.value ==> r == BadRequest()
    ensures body.Some? && "search_term" in body.value && !Truthy(body.value["search_term"]) ==>
              r == Reply(200, ErrorResponse(Given(EmptySearchMessage), Omitted))
    ensures body.Some? && "search_term" in body.value && Truthy(body.value["search_term"]) ==>
              && r.status == 200 && r.body.success && r.body.code == 200 && r.body.data.Some?
              && var term := Render(body.value["search_term"]);
              && var found := r.body.data.value.questions;
              && found == Filter(st.questions, q => MatchesTerm(q, term))
              && (forall q :: q in found <==> q in st.questions && MatchesTerm(q, term))
              && r.body.data.value.totalQuestions == |found|
  {
    if body.None? || "search_term" !in body.value then BadRequest()
    else
      var term := body.value["search_term"];
      if Truthy(term) then
        var text := Render(term);
        var found := Filter(st.questions, q => MatchesTerm(q, text));
        Reply(200, SuccessResponse(SearchResult(found, |found|), Omitted))
      else
        Reply(200, ErrorResponse(Given(EmptySearchMessage), Omitted))
  }

  /** Matching is substring containment after case folding. */
  lemma MatchesTermIsSubstring(q: Question, term: string)
    ensures MatchesTerm(q, term) <==> IsSubstring(LowerAll(term), LowerAll(q.question))
  {
    OccursIsSubstring(LowerAll(term), LowerAll(q.question));
  }

  /** A term found in exactly one question's text returns exactly that
      question. */
  lemma SearchSingleHit(st: Store, term: string, k: nat)
    requires term != ""
    requires k < |st.questions|
    requires forall i :: 0 <= i < |st.questions| ==> (MatchesTerm(st.questions[i], term) <==> i == k)
    ensures SearchQuestions(st, Some(map["search_term" := JStr(term)])).body.data
            == Some(SearchResult([st.questions[k]], 1))
  {
    FilterSingle(st.questions, q => MatchesTerm(q, term), k);
  }

  //----------------------------------------------------------------------
  // Questions of a category
  //----------------------------------------------------------------------

  datatype CategoryPage = CategoryPage(currentCategory: string, questions: seq<Question>, totalQuestions: nat)

  /** `Category.query.get(id)`. */
  function FindCategory(cs: seq<Category>, id: int): Option<Category> {
    match FindIndex(cs, (c: Category) => c.id == id)
    case None => None
    case Some(k) => Some(cs[k])
  }

  /** `GET /categories/<int:id>/questions`. */
  function CategoryQuestions(st: Store, categoryId: nat): (r: Reply<CategoryPage>)
    ensures WellFormed(r.body)
    ensures categoryId == 0 ==> r == Reply(200, ErrorResponse(Given(InvalidCategoryMessage), Omitted))
    ensures categoryId != 0 && (forall q :: q in st.questions ==> q.category != categoryId) ==>
              r == Reply(200, ErrorResponse(Given(NoQuestionsInCategoryMessage), Omitted))
    ensures categoryId != 0 && (exists q :: q in st.questions && q.category == categoryId) ==>
              match FindCategory(st.categories, categoryId)
              case None => r == BadRequest() && forall c :: c in st.categories ==> c.id != categoryId
              case Some(c) =>
                && r.status == 200 && r.body.success && r.body.code == 200 && r.body.data.Some?
                && var page := r.body.data.value;
                && c in st.categories && c.id == categoryId
                && page.currentCategory == c.kind
                && page.questions == Filter(st.questions, (q: Question) => q.category == categoryId)
                && (forall q :: q in page.questions <==> q in st.questions && q.category == categoryId)
                && 0 < page.totalQuestions == |page.questions|
  {
    if categoryId == 0 then
      Reply(200, ErrorResponse(Given(InvalidCategoryMessage), Omitted))
    else
      var found := Filter(st.questions, (q: Question) => q.category == categoryId);
      if |found| == 0 then
        Reply(200, ErrorResponse(Given(NoQuestionsInCategoryMessage), Omitted))
      else
        assert found[0] in found;
        match FindCategory(st.categories, categoryId)
        case None =>
          // `None.type` raises AttributeError
          BadRequest()
        case Some(c) =>
          Reply(200, SuccessResponse(CategoryPage(c.kind, found, |found|), Omitted))
  }

  //----------------------------------------------------------------------
  // Quiz
  //----------------------------------------------------------------------

  /** `category_id == 0` asks for any category; otherwise the question's
      category must equal it. */
  predicate InQuizCategory(q: Question, categoryId: Json) {
    EqualsZero(categoryId) || categoryId == JInt(q.category)
  }

  /** Is the question's id in `previous_questions`? */
  predicate Excluded(q: Question, previous: seq<Json>) {
    JInt(q.id) in previous
  }

  /** The request passes the handler's check:
      `(category_id or category_id == 0) and isinstance(previous_questions, list)`. */
  predicate QuizParametersAccepted(categoryId: Json, previous: Json) {
    (Truthy(categoryId) || EqualsZero(categoryId)) && previous.JList?
  }

  /** The filter query: the store accepts integer ids only, and a category
      other than 0 only as an integer. */
  function QuizCandidates(st: Store, categoryId: Json, previous: seq<Json>): (r: Outcome<seq<Question>>)
    ensures r.Raised? <==>
              (exists v :: v in previous && !v.JInt?) || (!EqualsZero(categoryId) && !categoryId.JInt?)
    ensures r.Returned? ==>
              forall q :: q in r.value <==> q in st.questions && InQuizCategory(q, categoryId) && !Excluded(q, previous)
  {
    if (exists v :: v in previous && !v.JInt?) || (!EqualsZero(categoryId) && !categoryId.JInt?) then
      Raised(StoreError)
    else if EqualsZero(categoryId) then
      Returned(Filter(st.questions, q => !Excluded(q, previous)))
    else
      Returned(Filter(st.questions, (q: Question) => q.category == categoryId.i && !Excluded(q, previous)))
  }

  /** `POST /quiz`: a random question of the category that was not asked yet,
      `data = null` when none is left. `random.choice` is a nondeterministic
      pick among the candidates. */
  method Quiz(st: Store, body: Option<Body>) returns (r: Reply<Option<Question>>)
    ensures WellFormed(r.body)
    ensures body.None? || "category_id" !in body.value || "previous_questions" !in body.value ==>
              r == BadRequest()
    ensures r.status == 200 <==>
              && body.Some? && "category_id" in body.value && "previous_questions" in body.value
              && QuizParametersAccepted(body.value["category_id"], body.value["previous_questions"])
              && QuizCandidates(st, body.value["category_id"], body.value["previous_questions"].items).Returned?
    ensures r.status != 200 ==> r == BadRequest()
    ensures r.status == 200 ==>
              && r.body.success && r.body.code == 200 && r.body.data.Some?
              && var categoryId, previous := body.value["category_id"], body.value["previous_questions"].items;
              && (r.body.data.value.Some? ==>
                    var q := r.body.data.value.value;
                    q in st.questions && InQuizCategory(q, categoryId) && !Excluded(q, previous))
              && (r.body.data.value.None? <==>
                    forall q :: q in st.questions && InQuizCategory(q, categoryId) ==> Excluded(q, previous))
  {
    if body.None? || "category_id" !in body.value || "previous_questions" !in body.value {
      return BadRequest();
    }
    var categoryId, previous := body.value["category_id"], body.value["previous_questions"];
    if !QuizParametersAccepted(categoryId, previous) {
      // `success_response(message=...)` raises TypeError
      return Handle(CallSuccessResponse<Option<Question>>(Omitted, Omitted, Given(QuizParametersMessage)));
    }
    var candidates := QuizCandidates(st, categoryId, previous.items);
    if candidates.Raised? {
      return BadRequest();
    }
    if |candidates.value| == 0 {
      return Reply(200, SuccessResponse(None, Omitted));
    }
    assert candidates.value[0] in candidates.value;
    var q :| q in candidates.value;
    return Reply(200, SuccessResponse(Some(q), Omitted));
  }
}

=== FILE: venue_areas.dfy ===
/**
 * The venue overview of the booking site (`GET /venues`): venues grouped by
 * area, one area per city and state, each venue shown with its number of
 * upcoming shows.
 *
 * The handler groups by the string `city + '_' + state` and recovers city
 * and state by splitting that string on `'_'`. `AreasAsWritten` models that.
 * When a city or a state contains `'_'` the two steps do not invert each
 * other, and two different locations can share one area that is labelled
 * with neither. `Areas` groups by the pair `(city, state)` itself; the two
 * agree whenever no city or state contains `'_'`.
 */
module Areas {
  import opened Python
  import opened Text
  import opened Seqs
  import opened Grouping
  import opened Fyyur

  datatype VenueSummary = VenueSummary(id: int, name: string, numUpcomingShows: nat)

  datatype Area = Area(city: string, state: string, venues: seq<VenueSummary>)

  type Location = (string, string)

  /** The dict key the handler builds. */
  function AreaKey(v: Venue): string {
    v.city + "_" + v.state
  }

  function LocationOf(v: Venue): Location {
    (v.city, v.state)
  }

  function JoinLocation(l: Location): string {
    l.0 + "_" + l.1
  }

  /** `{id, name, num_upcoming_shows}` for one venue. */
  function Summary(b: Booking, now: Time, v: Venue): VenueSummary {
    VenueSummary(v.id, v.name, |VenueUpcomingShows(b, v, now)|)
  }

  function Summaries(b: Booking, now: Time, vs: seq<Venue>): (r: seq<VenueSummary>)
    ensures |r| == |vs|
    ensures forall i :: 0 <= i < |vs| ==> r[i] == Summary(b, now, vs[i])
  {
    seq(|vs|, i requires 0 <= i < |vs| => Summary(b, now, vs[i]))
  }

  /** Every key the handler builds contains the separator, so splitting it
      gives at least two parts. */
  lemma AreaKeysSeparated(venues: seq<Venue>)
    ensures forall i :: 0 <= i < |Groups(venues, AreaKey)| ==> '_' in Groups(venues, AreaKey)[i].key
  {
    GroupsPartition(venues, AreaKey);
    forall i | 0 <= i < |Groups(venues, AreaKey)| ensures '_' in Groups(venues, AreaKey)[i].key {
      var v := Groups(venues, AreaKey)[i].members[0];
      assert AreaKey(v)[|v.city|] == '_';
    }
  }

  /** The areas as the handler computes them: grouped by the joined key,
      labelled with the first two parts of the split key. No label contains
      `'_'`, so a venue whose city or state does is never shown under its own
      location. */
  function AreasAsWritten(b: Booking, now: Time): (areas: seq<Area>)
    ensures |areas| == |Groups(b.venues, AreaKey)|
    ensures forall i :: 0 <= i < |areas| ==> '_' !in areas[i].city && '_' !in areas[i].state
  {
    AreaKeysSeparated(b.venues);
    LabelBySplitKey(b, now, Groups(b.venues, AreaKey))
  }

  /** The second loop of the handler over groups of venues by joined key. */
  function LabelBySplitKey(b: Booking, now: Time, gs: seq<Group<string, Venue>>): (areas: seq<Area>)
    requires forall i :: 0 <= i < |gs| ==> '_' in gs[i].key
    ensures |areas| == |gs|
    ensures forall i :: 0 <= i < |areas| ==> '_' !in areas[i].city && '_' !in areas[i].state
  {
    seq(|gs|, i requires 0 <= i < |gs| =>
      var address := Split(gs[i].key, '_');
      Area(address[0], address[1], Summaries(b, now, gs[i].members)))
  }

  /** As written, every venue is listed in one area, labelled with the first
      two `'_'`-separated parts of its joined key. */
  lemma AsWrittenCover(b: Booking, now: Time)
    ensures forall v :: v in b.venues ==> AsWrittenListed(b, now, v)
  {
    forall v | v in b.venues ensures AsWrittenListed(b, now, v) {
      AsWrittenCoverOne(b, now, v);
    }
  }

  /** The handler's areas list `v` under the first two parts of its key. */
  predicate AsWrittenListed(b: Booking, now: Time, v: Venue) {
    var parts := Split(AreaKey(v), '_');
    var areas := AreasAsWritten(b, now);
    && |parts| >= 2
    && exists i :: 0 <= i < |areas| && areas[i].city == parts[0] && areas[i].state == parts[1]
                    && Summary(b, now, v) in areas[i].venues
  }

  lemma AsWrittenCoverOne(b: Booking, now: Time, v: Venue)
    requires v in b.venues
    ensures AsWrittenListed(b, now, v)
  {
    var areas := AreasAsWritten(b, now);
    var gs := Groups(b.venues, AreaKey);
    GroupsPartition(b.venues, AreaKey);
    assert '_' in AreaKey(v) by {
      assert AreaKey(v)[|v.city|] == '_';
    }
    var i :| 0 <= i < |gs| && gs[i].key == AreaKey(v) && v in gs[i].members;
    var k :| 0 <= k < |gs[i].members| && gs[i].members[k] == v;
    var parts := Split(AreaKey(v), '_');
    assert areas[i] == Area(parts[0], parts[1], Summaries(b, now, gs[i].members));
    assert areas[i].venues[k] == Summary(b, now, v);
  }

  /** The areas grouped by the location itself. */
  function Areas(b: Booking, now: Time): (areas: seq<Area>)
    ensures |areas| == |Groups(b.venues, LocationOf)|
  {
    LabelByLocation(b, now, Groups(b.venues, LocationOf))
  }

  function LabelByLocation(b: Booking, now: Time, gs: seq<Group<Location, Venue>>): (areas: seq<Area>)
    ensures |areas| == |gs|
  {
    seq(|gs|, i requires 0 <= i < |gs| =>
      Area(gs[i].key.0, gs[i].key.1, Summaries(b, now, gs[i].members)))
  }

  /** No location has two areas, and no area is empty. */
  lemma AreasDistinct(b: Booking, now: Time)
    ensures var areas := Areas(b, now);
            && (forall i, j :: 0 <= i < j < |areas| ==>
                  (areas[i].city, areas[i].state) != (areas[j].city, areas[j].state))
            && forall i :: 0 <= i < |areas| ==> areas[i].venues != []
  {
    GroupsPartition(b.venues, LocationOf);
  }

  /** Every venue is listed in the area of its own city and state. */
  lemma AreasCover(b: Booking, now: Time)
    ensures var areas := Areas(b, now);
            forall v :: v in b.venues ==>
              exists i :: 0 <= i < |areas| && areas[i].city == v.city && areas[i].state == v.state
                            && Summary(b, now, v) in areas[i].venues
  {
    var areas := Areas(b, now);
    var gs := Groups(b.venues, LocationOf);
    GroupsPartition(b.venues, LocationOf);
    forall v | v in b.venues
      ensures exists i :: 0 <= i < |areas| && areas[i].city == v.city && areas[i].state == v.state
                            && Summary(b, now, v) in areas[i].venues
    {
      var i :| 0 <= i < |gs| && gs[i].key == LocationOf(v) && v in gs[i].members;
      var k :| 0 <= k < |gs[i].members| && gs[i].members[k] == v;
      assert areas[i].venues[k] == Summary(b, now, v);
    }
  }

  /** An area lists exactly the venues of its location, in table order. */
  lemma AreasContents(b: Booking, now: Time, i: nat)
    requires i < |Areas(b, now)|
    ensures var a := Areas(b, now)[i];
            a.venues == Summaries(b, now, Filter(b.venues, (v: Venue) => v.city == a.city && v.state == a.state))
  {
    var a := Areas(b, now)[i];
    var gs := Groups(b.venues, LocationOf);
    GroupsShape(b.venues, LocationOf);
    MembersFilter(b.venues, LocationOf, gs[i].key, (v: Venue) => v.city == a.city && v.state == a.state);
  }

  /** Areas appear in the order in which their location is first seen: a
      venue of a later area is preceded by some venue of every earlier one. */
  lemma AreasFirstSeenOrder(b: Booking, now: Time)
    ensures var areas := Areas(b, now);
            forall i, j, q :: 0 <= i < j < |areas| && 0 <= q < |b.venues| &&
                              LocationOf(b.venues[q]) == (areas[j].city, areas[j].state) ==>
                exists p :: 0 <= p < q && LocationOf(b.venues[p]) == (areas[i].city, areas[i].state)
  {
    var areas := Areas(b, now);
    forall i, j, q | 0 <= i < j < |areas| && 0 <= q < |b.venues| &&
                     LocationOf(b.venues[q]) == (areas[j].city, areas[j].state)
      ensures exists p :: 0 <= p < q && LocationOf(b.venues[p]) == (areas[i].city, areas[i].state)
    {
      var gs := Groups(b.venues, LocationOf);
      assert (areas[i].city, areas[i].state) == gs[i].key;
      assert (areas[j].city, areas[j].state) == gs[j].key;
      GroupKeySeenEarlier(b.venues, LocationOf, i, j, q);
    }
  }

  /** Splitting a joined key gives back the city and the state exactly when
      neither contains the separator. */
  lemma SplitKeyRoundTrip(city: string, state: string)
    ensures Split(city + "_" + state, '_') == [city, state] <==> '_' !in city && '_' !in state
  {
    var parts := Split(city + "_" + state, '_');
    if '_' !in city && '_' !in state {
      SplitAt(city, '_', state);
      assert Split(state, '_') == [state];
    } else {
      assert parts[0] != city || parts[1] != state;
    }
  }

  /** Without a separator in any city or state, the handler's areas are the
      areas by location. */
  lemma AsWrittenAgreesWithoutSeparator(b: Booking, now: Time)
    requires forall v :: v in b.venues ==> '_' !in v.city && '_' !in v.state
    ensures AreasAsWritten(b, now) == Areas(b, now)
  {
    var xs := b.venues;
    forall x, y | x in xs && y in xs && JoinLocation(LocationOf(x)) == JoinLocation(LocationOf(y))
      ensures LocationOf(x) == LocationOf(y)
    {
      SplitKeyRoundTrip(x.city, x.state);
      SplitKeyRoundTrip(y.city, y.state);
    }
    GroupsRekey(xs, LocationOf, AreaKey, JoinLocation);
    GroupsPartition(xs, LocationOf);
    var written, fixed := AreasAsWritten(b, now), Areas(b, now);
    forall i | 0 <= i < |fixed| ensures written[i] == fixed[i] {
      var g := Groups(xs, LocationOf)[i];
      var v := g.members[0];
      SplitKeyRoundTrip(v.city, v.state);
      assert Groups(xs, AreaKey)[i].key == v.city + "_" + v.state;
    }
  }

  /** A venue with no fields but its id and location. */
  function BareVenue(id: int, city: string, state: string): Venue {
    Venue(id, "", city, state, "", "", None, None, "", None, false, None)
  }

  /** Two venues whose locations join to the same key. */
  function ClashingVenues(): (b: Booking)
    ensures |b.venues| == 2 && b.shows == []
    ensures AreaKey(b.venues[0]) == AreaKey(b.venues[1])
    ensures LocationOf(b.venues[0]) != LocationOf(b.venues[1])
  {
    Booking([BareVenue(1, "a_b", "c"), BareVenue(2, "a", "b_c")], [], [])
  }

  lemma ClashingKeyGroups()
    ensures var vs := ClashingVenues().venues;
            Groups(vs, AreaKey) == [Group("a_b_c", vs)]
  {
    var vs := ClashingVenues().venues;
    var v1, v2 := vs[0], vs[1];
    assert [v1] == [] + [v1];
    assert vs == [v1] + [v2];
    assert AreaKey(v1) == "a_b_c";
    assert Groups([], AreaKey) == [];
    GroupsSnocNew([], AreaKey, v1);
    GroupsSnocFound([v1], AreaKey, v2, 0);
  }

  lemma ClashingLocationGroups()
    ensures var vs := ClashingVenues().venues;
            Groups(vs, LocationOf) == [Group(("a_b", "c"), [vs[0]]), Group(("a", "b_c"), [vs[1]])]
  {
    var vs := ClashingVenues().venues;
    var v1, v2 := vs[0], vs[1];
    assert [v1] == [] + [v1];
    assert vs == [v1] + [v2];
    assert Groups([], LocationOf) == [];
    GroupsSnocNew([], LocationOf, v1);
    GroupsSnocNew([v1], LocationOf, v2);
  }

  lemma SplitClashingKey()
    ensures Split("a_b_c", '_') == ["a", "b", "c"]
  {
    assert Split("c", '_') == ["c"];
    SplitAt("b", '_', "c");
    assert "b" + ['_'] + "c" == "b_c";
    SplitAt("a", '_', "b_c");
    assert "a" + ['_'] + "b_c" == "a_b_c";
  }

  /** Without shows, every venue has no upcoming show. */
  lemma NoShowsNoUpcoming(b: Booking, now: Time)
    requires b.shows == []
    ensures forall v :: |VenueUpcomingShows(b, v, now)| == 0
  {
  }

  lemma ClashingSummaries(now: Time)
    ensures var b := ClashingVenues();
            Summaries(b, now, b.venues) == [VenueSummary(1, "", 0), VenueSummary(2, "", 0)]
  {
    NoShowsNoUpcoming(ClashingVenues(), now);
  }

  /** Venues in ("a_b", "c") and in ("a", "b_c") share the key "a_b_c": the
      handler lists them in one area labelled ("a", "b"), the location of
      neither. */
  lemma AsWrittenMergesLocations(now: Time)
    ensures AreasAsWritten(ClashingVenues(), now) ==
              [Area("a", "b", [VenueSummary(1, "", 0), VenueSummary(2, "", 0)])]
  {
    ClashingKeyGroups();
    LabelClashingKey(now);
  }

  lemma LabelClashingKey(now: Time)
    ensures var b := ClashingVenues();
            LabelBySplitKey(b, now, [Group("a_b_c", b.venues)]) ==
              [Area("a", "b", [VenueSummary(1, "", 0), VenueSummary(2, "", 0)])]
  {
    var b := ClashingVenues();
    SplitClashingKey();
    ClashingSummaries(now);
  }

  /** Grouping the same venues by location keeps them apart. */
  lemma LocationsKeepClashingVenuesApart(now: Time)
    ensures Areas(ClashingVenues(), now) ==
              [Area("a_b", "c", [VenueSummary(1, "", 0)]), Area("a", "b_c", [VenueSummary(2, "", 0)])]
  {
    ClashingLocationGroups();
    LabelClashingLocations(now);
  }

  lemma LabelClashingLocations(now: Time)
    ensures var b := ClashingVenues();
            LabelByLocation(b, now, [Group(("a_b", "c"), [b.venues[0]]), Group(("a", "b_c"), [b.venues[1]])]) ==
              [Area("a_b", "c", [VenueSummary(1, "", 0)]), Area("a", "b_c", [VenueSummary(2, "", 0)])]
  {
    var b := ClashingVenues();
    NoShowsNoUpcoming(b, now);
    var s1, s2 := Summaries(b, now, [b.venues[0]]), Summaries(b, now, [b.venues[1]]);
    assert s1 == [VenueSummary(1, "", 0)] && s2 == [VenueSummary(2, "", 0)];
  }
}
